=== FILE: README.md ===
# F3 LaptopStore: a Dafny model of the store core

This project models the business core of the F3 LaptopStore web shop: the `Store` that
owns users, laptops, carts, orders, reviews and sessions, and the request-level rules of
the laptop and review endpoints in front of it.

The Store is a class whose fields are the six collections. Laptops, users, orders,
reviews and sessions are sequences in storage order, and a lookup finds the first match.
Carts are a map keyed by the owner's user id. Each write operation of the store is a
method that reassigns these fields. Its `ensures` ties the new state to the old state
through the pure specification functions of the modules below, and every method keeps
the invariant `Valid()`:

- laptop ids are distinct, and so are review ids;
- every stored laptop, review and user id was minted by the store;
- emails are unique;
- each cart is stored under its owner and holds at most one line per laptop.

Order placement is the one multi-entity transaction. `CreateOrderFromCart` is proved
against `Orders.Checkout`, `Orders.Reserve` and `Orders.Unselected`:

- any failure ("cart empty", "no selected items", "laptop not found", "insufficient
  stock") leaves the whole store unchanged;
- on success, each ordered laptop's stock drops by its line's quantity and never goes
  below zero;
- the order records, in cart order, the prices read during validation, together with
  their total;
- the cart is deleted when no selection was given. Otherwise it keeps exactly its
  unselected lines, possibly none.

Modules, one per file:

- `Wrappers`: Option, Result and Outcome.
- `Seqs`: first match, filter and stable insertion sort on sequences.
- `Model`: the entities.
- `Catalog`: the product query as the store builds it, its plain meaning, and listing and sorting.
- `Carts`: the cart merge.
- `Orders`: selection, validation, pricing, stock reservation and the order outcome.
- `Users`: registration rules and authentication.
- `Reviews`: the review rules.
- `Sessions`: the session check.
- `Store`: the class and the loops of order placement.
- `Http`: responses and string helpers.
- `ProductHandler` and `ReviewHandlers`: the endpoint rules.
- `Findings`: the laptop id reading of the code as written, for the finding below.

Parameters stand in for the parts outside the core:

- the clock is a `now: int` argument;
- bcrypt is a `hash` function (None when hashing fails) and a `verify` predicate;
- an ObjectID is an opaque string that the store mints from a counter, and an id that
  does not parse simply matches no record;
- prices, totals and the price bounds of a query are integers;
- a laptop or review request body that fails to decode arrives as `None`; a
  moderation request arrives as whatever the JSON decoder left in it, because that
  handler ignores the decode error;
- a missing role in the request context is the empty string.

Where the documented behaviour and the code disagree, the model follows the code:

- `AddToCart` checks only that the laptop exists, not that it is active or in stock.
- `CreateProduct` stores a negative price or stock as given (the HTTP handler rejects them first).
- An explicit selection that covers every cart line leaves an empty cart rather than deleting it.

## Model

| member | source | states |
|---|---|---|
| Catalog.BuildQuery | internal/store/store.go:115-146 | the query constrains only the eight known paths; `price` is present exactly when a bound is positive and carries only the positive bounds; `is_active` asks for active laptops exactly when inactive ones are not included |
| Catalog.QueryShape | internal/store/store.go:115-146 | the query document holds a key exactly for each non-empty text filter, `price` with `$gte`/`$lte` only for positive bounds, and `is_active` unless inactive laptops are included |
| Catalog.ShapeMeaning | internal/store/store.go:115-146 | any query of that shape matches a laptop exactly when the laptop meets the filter's plain rule (`Wanted`) |
| Catalog.QueryMeaning | internal/store/store.go:115-146 | the built query matches a laptop iff it equals every non-empty text field, is ≥ a positive minimum and ≤ a positive maximum, and is active unless inactive laptops are included |
| Catalog.Matching | internal/store/store.go:144-158 | the unsorted result holds exactly the stored laptops the filter wants, each exactly as often as it is stored |
| Catalog.ProductIndex | internal/store/store.go:171-184 | finds the position of the laptop with the id, or reports that no laptop has it; with distinct ids the position is the only one |
| Catalog.Lookup | internal/store/store.go:171-184 | GetProductByID yields a stored laptop with that id, and yields nothing exactly when no laptop has it |
| Catalog.ListProducts | internal/store/store.go:111-168 | the listing is a permutation of the matching laptops, ordered by ascending price, descending price or newest first for `price_asc`, `price_desc` and `newest` |
| Carts.EffectiveQty | internal/store/store.go:254-256 | a quantity ≤ 0 becomes 1, and a positive one is kept |
| Carts.Merge | internal/store/store.go:276-289 | after adding, the laptop has a line; the cart grows by at most one line, and every line of another laptop keeps its place and content |
| Carts.MergeAt | internal/store/store.go:276-283 | when the laptop already has a line, only that line changes, and its quantity grows by the added amount |
| Carts.MergeAppends | internal/store/store.go:284-289 | when the laptop has no line, exactly one line with the quantity is appended and the others stay |
| Carts.MergeWellFormed | internal/store/store.go:276-289 | adding keeps one line per laptop with positive quantities; the laptop has a line afterwards, and the cart grows by one line only when it had none |
| Carts.MergeQuantity | internal/store/store.go:276-289 | adding raises the cart's quantity of that laptop by the amount and leaves every other laptop's quantity alone |
| Carts.MergeTwice | internal/store/store.go:276-289 | adding a then b of a laptop gives the same cart as adding a+b once |
| Carts.GetCart | internal/store/store.go:301-314 | the stored cart of the user, or an empty cart carrying the user id |
| Orders.Part | internal/store/store.go:334-339 | the lines kept are exactly the cart lines whose laptop is (or is not) in the selection, in cart order (an increasing choice of positions) |
| Orders.Selected | internal/store/store.go:334-339 | exactly the cart lines whose laptop is selected, in cart order |
| Orders.Unselected | internal/store/store.go:395-404 | exactly the cart lines whose laptop is not selected, in cart order |
| Orders.Chosen | internal/store/store.go:328-344 | without a selection every cart line, with one the selected lines, in cart order |
| Orders.Partition | internal/store/store.go:395-404 | the selected and the remaining lines together are the cart's lines, each exactly once |
| Orders.PartWellFormed | internal/store/store.go:395-405 | the remaining lines keep the cart's one-line-per-laptop shape |
| Orders.ChosenWellFormed | internal/store/store.go:328-344 | the lines an order is placed for have one line per laptop |
| Orders.AllSelected | internal/store/store.go:392-408 | a selection covering every line leaves no remaining line (an empty cart, not a deleted one) and selects the whole cart |
| Orders.SelectedAll | internal/store/store.go:328-344 | a selection covering every line selects the cart's lines in order |
| Orders.LineError | internal/store/store.go:349-356 | a line passes iff its laptop exists, is active and has at least the line's quantity in stock; a missing or inactive laptop gives "laptop not found", and too little stock "insufficient stock" |
| Orders.Priced | internal/store/store.go:349-363 | a successful pass gives one order line per selected line; a failure is "laptop not found" or "insufficient stock" |
| Orders.PricedPrefix | internal/store/store.go:349-356 | once a line fails, validation fails with that line's error whatever follows |
| Orders.PricedSucceeds | internal/store/store.go:349-363 | validation succeeds iff every selected line passes; the order lines are then the selected lines in order, each with the laptop's current price |
| Orders.PricedAllOk | internal/store/store.go:349-356 | validation succeeds iff no selected line has an error |
| Orders.PricedShape | internal/store/store.go:357-361 | each order line carries its cart line's laptop and quantity and the price read for that laptop |
| Orders.PricedFails | internal/store/store.go:349-356 | a failed validation reports the error of the first failing line, and all earlier lines passed |
| Orders.Total | internal/store/store.go:362 | with non-negative prices and quantities the order total is non-negative |
| Orders.DecrementStock | internal/store/store.go:370-373 | decrementing one laptop keeps every laptop's id and position |
| Orders.DecrementAt | internal/store/store.go:370-373 | the laptop with the id loses the quantity from its stock and gets the new update time |
| Orders.DecrementElsewhere | internal/store/store.go:370-373 | every other laptop is unchanged |
| Orders.Reserve | internal/store/store.go:365-377 | reserving all lines keeps every laptop's id and position |
| Orders.ReserveUntouched | internal/store/store.go:365-377 | a laptop no line names is unchanged |
| Orders.ReserveSelected | internal/store/store.go:365-377 | a laptop named by a line loses exactly that line's quantity |
| Orders.NoOversell | internal/store/store.go:349-377 | after a validated order no ordered laptop's stock is negative, and no non-negative stock turns negative |
| Orders.Checkout | internal/store/store.go:316-363 | a success needs a stored cart and gives one order line per chosen line, at least one; a failure is one of the four checkout errors |
| Orders.CheckoutOutcome | internal/store/store.go:316-363 | the failure is "cart empty" iff the cart is absent or has no lines; it is "no selected items" iff a non-empty selection names none of the lines; the order goes through iff every chosen line passes; otherwise the error is that of the first failing chosen line, all earlier lines passing |
| Orders.ListOrders | internal/store/store.go:413-428 | exactly the user's orders, each as often as stored, newest first |
| Users.UserIndex | internal/store/store.go:66-72 | finds a user with the email, or reports that none has it |
| Users.RoleOrDefault | internal/store/store.go:59-61 | an empty role becomes "user", and any other role is kept |
| Users.RegistrationError | internal/store/store.go:55-77 | registration is refused iff the email or password is empty, the email is taken, or hashing fails; the refusal is "email and password required" for an empty email or password, "user already exists" exactly for a taken email, and "failed to hash password" for a free email whose hash fails |
| Users.SecondRegistrationConflicts | internal/store/store.go:66-72 | registering a stored email again gives "user already exists" |
| Users.RegistrationKeepsUnique | internal/store/store.go:66-88 | a registration that passes keeps emails unique |
| Users.Authenticate | internal/store/store.go:95-109 | any failure is "invalid credentials", for an unknown email and a wrong password alike; success gives the stored user with that email whose hash verifies, and with unique emails success happens iff such a user exists |
| Users.HasAdmin | internal/store/store.go:521-527 | the count of users with the admin role is positive exactly when some stored user is an admin |
| Reviews.ReviewIndex | internal/store/store.go:496-499 | finds the review with the id, or reports that none has it |
| Reviews.ValidRating | internal/store/store.go:431 | a rating is accepted exactly when it is one of 1, 2, 3, 4, 5 |
| Reviews.StatusOrApproved | internal/store/store.go:489-491 | an empty status becomes "approved", and any other status is kept as given |
| Reviews.ListReviews | internal/store/store.go:458-478 | exactly the laptop's reviews, each as often as stored, only approved ones unless pending ones are included, newest first |
| Reviews.ApprovalShowsReview | internal/store/store.go:462-465 | a pending review is hidden from the public listing and shows once approved |
| Sessions.SessionIndex | internal/store/store.go:552-559 | finds the first session with the token, or reports that none has it |
| Sessions.CheckSession | internal/store/store.go:548-565 | an unknown token is invalid and changes nothing; for the first session with the token, the answer is valid iff it has not expired; a valid answer changes nothing; an invalid one removes exactly that session and keeps the others in order |
| Sessions.UniqueTokenCheck | internal/store/store.go:548-565 | with one session per token: valid iff it has not expired; an invalid check leaves no session with the token, and checking again answers the same without change |
| Store.IdSet | internal/store/store.go:330-333 | the selection set holds exactly the selected ids |
| Store.KeepLines | internal/store/store.go:334-339 | the loop keeps exactly the selected (or the unselected) lines in cart order |
| Store.PriceLines | internal/store/store.go:346-363 | the validation loop gives the validation outcome, and on success the sum of price × quantity |
| Store.ReserveLines | internal/store/store.go:365-377 | the decrement loop gives the reserved stock |
| Store.MergeLine | internal/store/store.go:276-289 | the scan of the cart gives the merged lines |
| Store.RemoveOne | internal/store/store.go:243-250 | removing the laptop at one position keeps ids distinct and minted, leaves no laptop with its id and keeps every other laptop |
| Store.Store.constructor | internal/store/store.go:26-36 | a new store is empty and valid |
| Store.Store.RegisterUser | internal/store/store.go:55-93 | on a refusal nothing changes; otherwise exactly one user is appended, with an id no stored user has, the hash, and the given role or "user" |
| Store.Store.EnsureAdminUser | internal/store/store.go:507-531 | with an admin present nothing changes; otherwise it registers an admin with the defaulted email, name and password exactly as RegisterUser would: it fails with no change and RegisterUser's message ("user already exists" when the email is taken, "failed to hash password" when hashing fails), and otherwise appends the admin, after which an admin exists |
| Store.Store.CreateProduct | internal/store/store.go:187-203 | the laptop is appended active, with a fresh id and both timestamps set, whatever its active flag was |
| Store.Store.UpdateProduct | internal/store/store.go:205-235 | an unknown id changes nothing; otherwise only the mutable fields and the update time of that laptop change, and its id and creation time stay |
| Store.Store.DeleteProduct | internal/store/store.go:237-251 | the answer is true iff a laptop with the id existed; then exactly that laptop is removed and the others keep their order; afterwards none has the id |
| Store.Store.AddToCart | internal/store/store.go:253-299 | an unknown laptop fails with no change; otherwise the user's cart, created lazily, gets the merged quantity and keeps one line per laptop |
| Store.Store.CreateOrderFromCart | internal/store/store.go:316-411 | a failure leaves the store unchanged and reports the checkout error; a success stores the order (validated prices, their total, "created"), reserves the stock without making any stock negative, and deletes or prunes the cart |
| Store.Store.CommitOrder | internal/store/store.go:365-408 | after validation: stock reserved, order appended, cart settled |
| Store.Store.ReserveStock | internal/store/store.go:365-377 | the stock is reserved line by line and no non-negative stock turns negative |
| Store.Store.SettleCart | internal/store/store.go:392-408 | the cart is deleted without a selection and keeps its unselected lines with one |
| Store.Store.CreateReview | internal/store/store.go:430-456 | a rating outside 1..5 fails before the laptop lookup, then an unknown laptop fails, both with no change; otherwise a pending review with a fresh id is appended |
| Store.Store.SetReviewStatus | internal/store/store.go:480-501 | an unknown id changes nothing; otherwise only that review's status changes, to the given status or "approved" for an empty one |
| Store.Store.ApproveReview | internal/store/store.go:503-505 | the review's status becomes "approved" |
| Store.Store.CreateSession | internal/store/store.go:533-546 | exactly one session with the token, owner, role and expiry is appended |
| Store.Store.IsSessionValid | internal/store/store.go:548-565 | the answer and the new sessions are those of the session check: an unknown token is invalid, an expired one is invalid and removed, a live one is valid and nothing changes |
| ProductHandler.TrimSpace | internal/httpapi/product_handler.go:148 | the name is the trimmed name with white space only before and after it, and the trimmed name neither starts nor ends with white space |
| ProductHandler.TrimSpaceEmpty | internal/httpapi/product_handler.go:148-150 | a name trims to nothing iff it is all white space |
| ProductHandler.ValidateProduct | internal/httpapi/product_handler.go:147-158 | the first failure is a blank model name, then a missing brand or category, then a negative price or stock; zero passes, and anything else is accepted |
| ProductHandler.FilterFromQuery | internal/httpapi/product_handler.go:164-187 | the text parameters map verbatim to the filter, and inactive laptops are included only for include_inactive exactly "true" |
| ProductHandler.ListingHidesInactive | internal/httpapi/product_handler.go:170-173 | without include_inactive=true a listing shows only active laptops |
| ProductHandler.BareListing | internal/httpapi/product_handler.go:164-187 | a listing request without parameters shows exactly the active laptops |
| ProductHandler.LaptopIdFromPath | internal/httpapi/product_handler.go:61 | the id is the path after "/api/laptops/"; a path without that prefix comes back unchanged |
| ProductHandler.LaptopPathRoundTrip | internal/httpapi/product_handler.go:61-65 | the id put after the prefix is the id read back |
| ProductHandler.HandleLaptops | internal/httpapi/product_handler.go:21-58 | GET lists with the query's filter; POST by a non-admin gets 403, a bad body 400 and an invalid laptop 400 with its message, all without a store call; 201 iff an admin posts a valid laptop, and then the posted laptop, with a fresh id, both times set and active, is appended and returned; other methods get 405 |
| ProductHandler.HandleLaptopByID | internal/httpapi/product_handler.go:60-113 | an empty id gets 400; GET answers 200 with the laptop or 404; PUT and DELETE by a non-admin get 403; an admin PUT gets 400 "bad json" for a body that does not decode and 400 with the validation message for an invalid laptop; an unknown id on an admin PUT or DELETE gets 404; a valid admin PUT on a known id replaces that laptop's mutable fields and update time and returns it with 200; an admin DELETE of a known id removes exactly that laptop and answers 200 "deleted"; the catalog changes in no other case |
| ReviewHandlers.RouteReview | internal/httpapi/review_handlers.go:41-54 | only paths ending in "/approve" are handled; the id lies between "/api/reviews/" and "/approve"; an empty id is a bad id |
| ReviewHandlers.ReviewPathRoundTrip | internal/httpapi/review_handlers.go:42-49 | the approval path built from a non-empty id routes to that id |
| ReviewHandlers.ModerationStatus | internal/httpapi/review_handlers.go:109-114 | a given status wins; otherwise approved=false gives "rejected" and anything else "approved" |
| ReviewHandlers.IncludePending | internal/httpapi/review_handlers.go:86-89 | only the admin role sees pending reviews, and the admin only when asking with all=true |
| ReviewHandlers.HandleListReviews | internal/httpapi/review_handlers.go:78-98 | a missing product_id gets 400; otherwise 200 with exactly the store's review listing for the product (newest first), pending ones only for the admin role asking with all=true |
| ReviewHandlers.HandleReviews | internal/httpapi/review_handlers.go:30-76 | POST without a user gets 401 and a bad body 400; a store error gets 400 with its message; 201 iff the rating is valid and the laptop exists, and then the answer is the appended review: fresh id, the user, the request's laptop, rating and comment, "pending", created now |
| ReviewHandlers.HandleReviewByID | internal/httpapi/review_handlers.go:100-123 | a non-approval path gets 405 and a bad id 400; a non-admin gets 403 with no change; an admin sets the status the request as decoded chooses, or gets 404 for an unknown review; the review is publicly listed afterwards iff the status is "approved" |
| Findings.OversellAsWritten | internal/store/store.go:276-289 | with the code's mixed id reading, adding one laptop as "FF" and as "ff" makes two lines that each pass validation, and the order takes a stock of 1 to -1 |
| Findings.ExactIdsRefuse | internal/store/store.go:276-289 | with exact ids the other spelling is not found, two adds merge into one line of quantity 2, and that line fails the stock check |

## Left out

- MongoDB: collections, cursors, the 10-second context timeouts and database errors are not modelled. Every store call is treated as succeeding at the database level, so the `err` results that only a database failure produces become plain results.
- ObjectIDs: generation and hex parsing are not modelled. Ids are minted from a counter. An id that does not parse matches no record, which the model gets from the fact that it equals no stored id.
- The "invalid laptop id" error of `CreateOrderFromCart` (internal/store/store.go:366-368) cannot occur after validation has found every laptop by the same id, so the model has no such branch.
- bcrypt is not modelled: hashing and comparison are the `hash`/`verify` parameters.
- Floating point is not modelled: prices, totals and the `price_min`/`price_max` values are integers, and `strconv.ParseFloat` is replaced by already-parsed bounds. The price difference of `HandleCompare` is left out with it.
- Concurrency is not modelled: the count-then-insert of registration and the validate-then-decrement of order placement run as single sequential steps. The no-oversell guarantee is therefore proved for one order at a time.
- Integer width: Go's 64-bit `int` quantities and stocks are unbounded integers here.
- JWT tokens, routing in main.go, JSON encoding, the middleware and the context helpers are not part of this model. The role and the user id reach the handlers as parameters.
- `HandleCompare` and the thin cart, order and auth handlers are not part of this model, and neither is the frontend.
- Laptop id spelling: Catalog.Lookup and the cart merge compare ids as exact strings. The code parses the id with ObjectIDFromHex for lookups and stock updates, which also accepts upper-case hex, but compares the raw text when merging cart lines and selecting them. Two spellings of one laptop's id therefore make two cart lines that are checked against the stock separately, and an order can take the stock below zero (see Findings). The model keeps the exact comparison throughout, so Orders.NoOversell holds of it.
- Store.Store.AuthenticateUser, Store.Store.GetProductByID, Store.Store.ListProducts, Store.Store.GetCart, Store.Store.ListOrders, Store.Store.ListReviews: these read functions carry no contract of their own. Each applies a specification function to the stored collection, and that function holds the contract: AuthenticateUser applies Users.Authenticate, GetProductByID applies Catalog.Lookup, and ListProducts, GetCart, ListOrders and ListReviews apply Catalog.ListProducts, Carts.GetCart, Orders.ListOrders and Reviews.ListReviews.

## Findings

| source | as written | input that shows it | evidently intended | confidence | as-written member | corrected member |
|---|---|---|---|---|---|---|
| internal/store/store.go:276-289 | AddToCart finds the laptop through ObjectIDFromHex, which accepts upper-case hex, but merges cart lines by the raw id text; CreateOrderFromCart checks each line against the stock on its own and then decrements by the parsed id | a laptop "ff…" with stock 1, added once as "FF…" and once as "ff…" with quantity 1 each: two lines, both pass the stock check, and the stock ends at -1 | one line per laptop, so the combined quantity is checked against the stock and the order is refused | medium, not executed | Findings.OversellAsWritten | Orders.NoOversell |

=== FILE: carts.dfy ===
/** Cart lines: how AddToCart merges a product into a cart's list of lines. */
module Carts {
  import opened Model

  /** The quantity an add request contributes: a quantity of zero or less counts as one. */
  function EffectiveQty(qty: int): (q: int)
    ensures q >= 1
    ensures qty >= 1 ==> q == qty
    ensures qty < 1 ==> q == 1
  {
    if qty <= 0 then 1 else qty
  }

  /** Every line has a positive quantity and no product has two lines. */
  predicate WellFormed(items: seq<CartItem>) {
    && (forall i :: 0 <= i < |items| ==> items[i].quantity >= 1)
    && (forall i, j :: 0 <= i < j < |items| ==> items[i].laptopId != items[j].laptopId)
  }

  /** Whether some line of the cart is for product `id`. */
  predicate HasLine(items: seq<CartItem>, id: string) {
    exists i :: 0 <= i < |items| && items[i].laptopId == id
  }

  /** The merge rule: the first line for `id` grows by `q`, or a new line goes at the end. */
  function Merge(items: seq<CartItem>, id: string, q: int): (r: seq<CartItem>)
    ensures HasLine(r, id)
    ensures |items| <= |r| <= |items| + 1
    ensures forall k :: 0 <= k < |items| && items[k].laptopId != id ==> r[k] == items[k]
  {
    if items == [] then
      var r := [CartItem(id, q)];
      assert r[0].laptopId == id;
      r
    else if items[0].laptopId == id then
      var r := [items[0].(quantity := items[0].quantity + q)] + items[1..];
      assert r[0].laptopId == id;
      r
    else
      var rest := Merge(items[1..], id, q);
      var r := [items[0]] + rest;
      assert HasLine(r, id) by {
        var j :| 0 <= j < |rest| && rest[j].laptopId == id;
        assert r[j + 1] == rest[j];
      }
      assert forall k :: 1 <= k < |items| ==> r[k] == rest[k - 1] && items[k] == items[1..][k - 1];
      r
  }

  /** Total quantity the cart holds for product `id`. */
  function QuantityOf(items: seq<CartItem>, id: string): (n: int) {
    if items == [] then 0
    else (if items[0].laptopId == id then items[0].quantity else 0) + QuantityOf(items[1..], id)
  }

  /** When line `k` is the first for `id`, merging updates that line in place. */
  lemma {:induction false} MergeAt(items: seq<CartItem>, id: string, q: int, k: nat)
    requires k < |items| && items[k].laptopId == id
    requires forall j :: 0 <= j < k ==> items[j].laptopId != id
    ensures Merge(items, id, q) == items[k := items[k].(quantity := items[k].quantity + q)]
  {
    if k > 0 {
      MergeAt(items[1..], id, q, k - 1);
    }
  }

  /** When no line is for `id`, merging appends exactly one line. */
  lemma {:induction false} MergeAppends(items: seq<CartItem>, id: string, q: int)
    requires !HasLine(items, id)
    ensures Merge(items, id, q) == items + [CartItem(id, q)]
  {
    if items != [] {
      assert !HasLine(items[1..], id) by {
        forall i | 0 <= i < |items[1..]| ensures items[1..][i].laptopId != id {
          assert items[1..][i] == items[i + 1];
        }
      }
      MergeAppends(items[1..], id, q);
    }
  }

  /** Merging a positive quantity keeps a cart well formed: one line per product. */
  lemma MergeWellFormed(items: seq<CartItem>, id: string, q: int)
    requires WellFormed(items) && q >= 1
    ensures WellFormed(Merge(items, id, q))
    ensures HasLine(Merge(items, id, q), id)
    ensures |Merge(items, id, q)| == if HasLine(items, id) then |items| else |items| + 1
  {
    if HasLine(items, id) {
      var k :| 0 <= k < |items| && items[k].laptopId == id;
      assert forall j :: 0 <= j < |items| && items[j].laptopId == id ==> j == k;
      MergeAt(items, id, q, k);
      assert Merge(items, id, q)[k].laptopId == id;
    } else {
      MergeAppends(items, id, q);
      assert Merge(items, id, q)[|items|].laptopId == id;
    }
  }

  /** Merging adds `q` to the product's quantity and leaves every other product's alone. */
  lemma {:induction false} MergeQuantity(items: seq<CartItem>, id: string, q: int, other: string)
    ensures QuantityOf(Merge(items, id, q), other) == QuantityOf(items, other) + (if other == id then q else 0)
  {
    if items != [] && items[0].laptopId != id {
      MergeQuantity(items[1..], id, q, other);
      assert Merge(items, id, q)[1..] == Merge(items[1..], id, q);
    } else if items != [] {
      assert Merge(items, id, q)[1..] == items[1..];
    }
  }

  /** Two adds of the same product collapse into one add of the summed quantity. */
  lemma {:induction false} MergeTwice(items: seq<CartItem>, id: string, a: int, b: int)
    ensures Merge(Merge(items, id, a), id, b) == Merge(items, id, a + b)
  {
    if items != [] && items[0].laptopId != id {
      MergeTwice(items[1..], id, a, b);
      assert Merge(items, id, a)[1..] == Merge(items[1..], id, a);
    } else if items != [] {
      assert Merge(items, id, a)[1..] == items[1..];
    }
  }

  /** GetCart: the stored cart, or an empty cart carrying the user id when there is none. */
  function GetCart(carts: map<string, Cart>, userId: string): (c: Cart)
    ensures userId in carts ==> c == carts[userId]
    ensures userId !in carts ==> c.userId == userId && c.items == []
  {
    if userId in carts then carts[userId] else Cart("", userId, [], 0)
  }
}

=== FILE: catalog.dfy ===
/** The product catalog's query side: the filter a listing request carries, the
    document query the store builds from it field by field, and lookup by id. */
module Catalog {
  import opened Wrappers
  import opened Model
  import opened Seqs

  /** The listing filter (store.go:42-53); PriceMin and PriceMax are integers here. */
  datatype ProductFilter = ProductFilter(
    brandId: string, categoryId: string, cpu: string, ram: string, gpu: string,
    storageType: string, priceMin: int, priceMax: int, sort: string,
    includeInactive: bool)

  /** One condition of the document query: equality with a text, equality with a
      boolean, or a price range with optional `$gte` and `$lte` bounds. */
  datatype Condition = Equals(text: string) | Flag(flag: bool) | Between(min: Option<int>, max: Option<int>)

  /** The query document, as the store assembles it: one condition per present key. */
  function BuildQuery(f: ProductFilter): (q: map<string, Condition>)
    ensures q.Keys <= QueryKeys()
    ensures RangeFor(q, f.priceMin, f.priceMax)
    ensures ActiveFor(q, f.includeInactive)
  {
    var q0: map<string, Condition> := map[];
    var q1 := if f.brandId != "" then q0["brand_id" := Equals(f.brandId)] else q0;
    var q2 := if f.categoryId != "" then q1["category_id" := Equals(f.categoryId)] else q1;
    var q3 := if f.cpu != "" then q2["specs.cpu" := Equals(f.cpu)] else q2;
    var q4 := if f.ram != "" then q3["specs.ram" := Equals(f.ram)] else q3;
    var q5 := if f.gpu != "" then q4["specs.gpu" := Equals(f.gpu)] else q4;
    var q6 := if f.storageType != "" then q5["specs.storage_type" := Equals(f.storageType)] else q5;
    var q7 :=
      if f.priceMin > 0 || f.priceMax > 0 then
        q6["price" := Between(if f.priceMin > 0 then Some(f.priceMin) else None,
                              if f.priceMax > 0 then Some(f.priceMax) else None)]
      else q6;
    if !f.includeInactive then q7["is_active" := Flag(true)] else q7
  }

  /** The text stored under a document path of a laptop record. */
  function TextField(p: Laptop, path: string): (r: Option<string>) {
    match path
    case "brand_id" => Some(p.brandId)
    case "category_id" => Some(p.categoryId)
    case "specs.cpu" => Some(p.specs.cpu)
    case "specs.ram" => Some(p.specs.ram)
    case "specs.gpu" => Some(p.specs.gpu)
    case "specs.storage_type" => Some(p.specs.storageType)
    case _ => None
  }

  /** Whether the record satisfies one condition of the query. */
  predicate Satisfies(p: Laptop, path: string, c: Condition) {
    match c
    case Equals(t) => TextField(p, path) == Some(t)
    case Flag(b) => path == "is_active" && p.isActive == b
    case Between(lo, hi) =>
      path == "price" && (lo.None? || p.price >= lo.value) && (hi.None? || p.price <= hi.value)
  }

  /** A document matches a query when it satisfies every condition in it. */
  predicate MatchesQuery(p: Laptop, q: map<string, Condition>) {
    forall path :: path in q ==> Satisfies(p, path, q[path])
  }

  /** The listing rule stated field by field: every non-empty text field must be equal,
      the price bounds apply only when positive, and inactive products are hidden
      unless the filter asks for them. */
  predicate Wanted(p: Laptop, f: ProductFilter) {
    && (f.brandId == "" || p.brandId == f.brandId)
    && (f.categoryId == "" || p.categoryId == f.categoryId)
    && (f.cpu == "" || p.specs.cpu == f.cpu)
    && (f.ram == "" || p.specs.ram == f.ram)
    && (f.gpu == "" || p.specs.gpu == f.gpu)
    && (f.storageType == "" || p.specs.storageType == f.storageType)
    && (f.priceMin <= 0 || p.price >= f.priceMin)
    && (f.priceMax <= 0 || p.price <= f.priceMax)
    && (f.includeInactive || p.isActive)
  }

  /** The keys a query for `f` holds and the condition under each: a text key is
      present exactly when its filter field is non-empty, `price` when either bound
      is positive, and `is_active` unless inactive products are included. */
  predicate QueryFor(f: ProductFilter, q: map<string, Condition>) {
    && q.Keys <= QueryKeys()
    && TextFor(q, "brand_id", f.brandId) && TextFor(q, "category_id", f.categoryId)
    && TextFor(q, "specs.cpu", f.cpu) && TextFor(q, "specs.ram", f.ram)
    && TextFor(q, "specs.gpu", f.gpu) && TextFor(q, "specs.storage_type", f.storageType)
    && RangeFor(q, f.priceMin, f.priceMax)
    && ActiveFor(q, f.includeInactive)
  }

  /** The document paths a listing query may constrain. */
  function QueryKeys(): set<string> {
    {"brand_id", "category_id", "specs.cpu", "specs.ram", "specs.gpu", "specs.storage_type", "price", "is_active"}
  }

  /** A text key is present exactly when its filter field is non-empty, and then
      asks for equality with it. */
  predicate TextFor(q: map<string, Condition>, path: string, value: string) {
    && (path in q <==> value != "")
    && (path in q ==> q[path] == Equals(value))
  }

  /** `price` is present when either bound is positive, with only the positive bounds. */
  predicate RangeFor(q: map<string, Condition>, priceMin: int, priceMax: int) {
    && ("price" in q <==> priceMin > 0 || priceMax > 0)
    && ("price" in q ==> q["price"] == Between(if priceMin > 0 then Some(priceMin) else None,
                                               if priceMax > 0 then Some(priceMax) else None))
  }

  /** `is_active` is present, asking for active records, unless inactive ones are included. */
  predicate ActiveFor(q: map<string, Condition>, includeInactive: bool) {
    && ("is_active" in q <==> !includeInactive)
    && ("is_active" in q ==> q["is_active"] == Flag(true))
  }

  /** The construction gives every text key its rule as well: the whole query
      has the shape `QueryFor` describes. */
  lemma QueryShape(f: ProductFilter)
    ensures QueryFor(f, BuildQuery(f))
  {
  }

  /** Any query of that shape selects exactly the products the listing rule wants. */
  lemma ShapeMeaning(p: Laptop, f: ProductFilter, q: map<string, Condition>)
    requires QueryFor(f, q)
    ensures MatchesQuery(p, q) <==> Wanted(p, f)
  {
  }

  /** The query the store builds selects exactly the products the listing rule wants. */
  lemma QueryMeaning(p: Laptop, f: ProductFilter)
    ensures MatchesQuery(p, BuildQuery(f)) <==> Wanted(p, f)
  {
    QueryShape(f);
    ShapeMeaning(p, f, BuildQuery(f));
  }

  /** The products a filter selects, in stored order. */
  function Matching(products: seq<Laptop>, f: ProductFilter): (r: seq<Laptop>)
    ensures forall p :: p in r <==> p in products && Wanted(p, f)
    ensures forall p :: multiset(r)[p] == if Wanted(p, f) then multiset(products)[p] else 0
  {
    forall p ensures MatchesQuery(p, BuildQuery(f)) <==> Wanted(p, f) {
      QueryMeaning(p, f);
    }
    Filter(products, (p: Laptop) => MatchesQuery(p, BuildQuery(f)))
  }

  /** No two stored products share an id. */
  predicate DistinctIds(products: seq<Laptop>) {
    forall i, j :: 0 <= i < j < |products| ==> products[i].id != products[j].id
  }

  /** Position of the product with the given id (an id that does not parse matches none). */
  function ProductIndex(products: seq<Laptop>, id: string): (r: Option<nat>)
    ensures r.Some? ==> r.value < |products| && products[r.value].id == id
    ensures r.None? <==> forall p :: p in products ==> p.id != id
    ensures r.Some? && DistinctIds(products) ==>
      forall k :: 0 <= k < |products| && products[k].id == id ==> k == r.value
  {
    FirstIndex(products, (p: Laptop) => p.id == id)
  }

  /** GetProductByID over a product collection: the stored record with that id, if any. */
  function Lookup(products: seq<Laptop>, id: string): (r: Option<Laptop>)
    ensures r.Some? ==> r.value in products && r.value.id == id
    ensures r.None? <==> forall p :: p in products ==> p.id != id
  {
    match ProductIndex(products, id)
    case None => None
    case Some(k) => Some(products[k])
  }

  /** ListProducts: the matching products, sorted by price ascending ("price_asc"),
      price descending ("price_desc") or creation time newest first ("newest");
      any other sort value leaves them in stored order. */
  function ListProducts(products: seq<Laptop>, f: ProductFilter): (r: seq<Laptop>)
    ensures forall p :: p in r <==> p in products && Wanted(p, f)
    ensures multiset(r) == multiset(Matching(products, f))
    ensures f.sort == "price_asc" ==> forall i, j :: 0 <= i < j < |r| ==> r[i].price <= r[j].price
    ensures f.sort == "price_desc" ==> forall i, j :: 0 <= i < j < |r| ==> r[i].price >= r[j].price
    ensures f.sort == "newest" ==> forall i, j :: 0 <= i < j < |r| ==> r[i].createdAt >= r[j].createdAt
    ensures f.sort !in {"price_asc", "price_desc", "newest"} ==> r == Matching(products, f)
  {
    var m := Matching(products, f);
    if f.sort == "price_asc" then SortBy(m, (p: Laptop) => p.price)
    else if f.sort == "price_desc" then SortBy(m, (p: Laptop) => -p.price)
    else if f.sort == "newest" then SortBy(m, (p: Laptop) => -p.createdAt)
    else m
  }
}

=== FILE: findings.dfy ===
/** Laptop ids as the store code reads them. Product lookups and stock updates parse
    the id with ObjectIDFromHex, which accepts upper-case as well as lower-case hex
    digits, while the cart merge and the item selection compare the id text as it
    was sent. The rest of the model compares ids exactly everywhere; this module
    keeps the mixed reading to show what it lets through. */
module Findings {
  import opened Wrappers
  import opened Model
  import opened Catalog
  import opened Carts
  import opened Orders

  /** A hex digit as the parsed id prints it: 'A'..'F' become 'a'..'f'. */
  function LowerHex(c: char): (d: char)
    ensures 'A' <= c <= 'F' ==> 'a' <= d <= 'f' && d as int - 'a' as int == c as int - 'A' as int
    ensures !('A' <= c <= 'F') ==> d == c
  {
    if 'A' <= c <= 'F' then (c as int - 'A' as int + 'a' as int) as char else c
  }

  /** The id the database matches once ObjectIDFromHex has parsed `id`. */
  function Canonical(id: string): (r: string)
    ensures |r| == |id|
    ensures forall i :: 0 <= i < |id| ==> r[i] == LowerHex(id[i])
  {
    if id == [] then [] else [LowerHex(id[0])] + Canonical(id[1..])
  }

  /** GetProductByID as written: the stored ids are lower-case hex, and the request's
      id is parsed first. */
  function LookupAsWritten(products: seq<Laptop>, id: string): (r: Option<Laptop>)
  {
    Lookup(products, Canonical(id))
  }

  /** The per-line validation of CreateOrderFromCart as written. */
  function LineErrorAsWritten(products: seq<Laptop>, it: CartItem): (e: Option<string>)
  {
    LineError(products, it.(laptopId := Canonical(it.laptopId)))
  }

  /** The stock update of CreateOrderFromCart as written: each line's `$inc` goes to
      the product its parsed id names. */
  function ReserveAsWritten(products: seq<Laptop>, lines: seq<CartItem>, now: int): (r: seq<Laptop>)
    ensures |r| == |products|
    decreases |lines|
  {
    if lines == [] then products
    else
      var it := lines[|lines| - 1];
      DecrementStock(ReserveAsWritten(products, lines[..|lines| - 1], now), Canonical(it.laptopId), it.quantity, now)
  }

  /** One laptop in stock once, added to the cart as "FF" and then as "ff" (two hex
      digits stand for the 24 of a real id): both adds
      find the laptop, the merge keeps two lines, each line alone passes the stock
      check, and the order takes the stock to -1. */
  lemma OversellAsWritten(p: Laptop, now: int)
    requires p.id == "ff" && p.isActive && p.stock == 1
    ensures LookupAsWritten([p], "FF") == Some(p) && LookupAsWritten([p], "ff") == Some(p)
    ensures Merge(Merge([], "FF", 1), "ff", 1) == [CartItem("FF", 1), CartItem("ff", 1)]
    ensures forall it :: it in Merge(Merge([], "FF", 1), "ff", 1) ==> LineErrorAsWritten([p], it).None?
    ensures ReserveAsWritten([p], Merge(Merge([], "FF", 1), "ff", 1), now)[0].stock == -1
  {
    UpperParsesLower();
    TwoSpellingsTwoLines();
    StockTakenTwice(p, now);
  }

  lemma UpperParsesLower()
    ensures Canonical("FF") == "ff" && Canonical("ff") == "ff"
  {
    assert LowerHex('F') == 'f' && LowerHex('f') == 'f';
  }

  /** The merge compares the id text, so the two spellings make two lines. */
  lemma TwoSpellingsTwoLines()
    ensures Merge(Merge([], "FF", 1), "ff", 1) == [CartItem("FF", 1), CartItem("ff", 1)]
  {
    assert "FF" != "ff" by {
      assert "FF"[0] != "ff"[0];
    }
    assert Merge([], "FF", 1) == [CartItem("FF", 1)];
  }

  /** Both lines' `$inc` reach the one laptop. */
  lemma StockTakenTwice(p: Laptop, now: int)
    requires p.id == "ff" && p.stock == 1
    requires Canonical("FF") == "ff" && Canonical("ff") == "ff"
    ensures ReserveAsWritten([p], [CartItem("FF", 1), CartItem("ff", 1)], now)[0].stock == -1
  {
    var lines := [CartItem("FF", 1), CartItem("ff", 1)];
    assert lines[..1] == [CartItem("FF", 1)] && lines[..1][..0] == [];
    assert ProductIndex([p], "ff") == Some(0);
    var once := ReserveAsWritten([p], lines[..1], now);
    assert once == DecrementStock(ReserveAsWritten([p], [], now), Canonical("FF"), 1, now);
    assert once[0].stock == 0 && once[0].id == "ff";
    assert ProductIndex(once, "ff") == Some(0);
  }

  /** The same laptop under the model's exact ids: the upper-case spelling is not
      found, two adds of the one spelling merge into a line of quantity 2, and that
      line fails the stock check, so the order is refused (Orders.NoOversell states
      the general rule). */
  lemma ExactIdsRefuse(p: Laptop)
    requires p.id == "ff" && p.isActive && p.stock == 1
    ensures Lookup([p], "FF").None?
    ensures Merge(Merge([], "ff", 1), "ff", 1) == [CartItem("ff", 2)]
    ensures LineError([p], CartItem("ff", 2)) == Some("insufficient stock")
  {
    assert "FF" != "ff" by {
      assert "FF"[0] != "ff"[0];
    }
  }
}

=== FILE: http.dfy ===
/** What the handlers answer, and the string helpers they use on paths and queries. */
module Http {
  import opened Model

  /** The JSON body of a response. */
  datatype Body =
    | ErrorBody(message: string)
    | LaptopList(laptops: seq<Laptop>)
    | LaptopBody(laptop: Laptop)
    | MessageBody(message: string)
    | ReviewList(reviews: seq<Review>)
    | ReviewBody(review: Review)
    | NoBody

  datatype Response = Response(status: int, body: Body)

  /** The first value of a query parameter, "" when it is absent (a query maps each
      name to its first value). */
  function Get(query: map<string, string>, key: string): (v: string)
    ensures key !in query ==> v == ""
    ensures key in query ==> v == query[key]
  {
    if key in query then query[key] else ""
  }

  /** The string without the prefix, when it starts with it; otherwise unchanged. */
  function TrimPrefix(s: string, prefix: string): (r: string)
    ensures prefix <= s ==> prefix + r == s
    ensures !(prefix <= s) ==> r == s
  {
    if prefix <= s then s[|prefix|..] else s
  }

  predicate HasSuffix(s: string, suffix: string) {
    |suffix| <= |s| && s[|s| - |suffix|..] == suffix
  }

  /** The string without the suffix, when it ends with it; otherwise unchanged. */
  function TrimSuffix(s: string, suffix: string): (r: string)
    ensures HasSuffix(s, suffix) ==> r + suffix == s
    ensures !HasSuffix(s, suffix) ==> r == s
  {
    if HasSuffix(s, suffix) then s[..|s| - |suffix|] else s
  }

  /** Trimming a prefix undoes prepending it. */
  lemma TrimPrefixOfConcat(prefix: string, rest: string)
    ensures TrimPrefix(prefix + rest, prefix) == rest
  {
  }

  /** Trimming a suffix undoes appending it. */
  lemma TrimSuffixOfConcat(rest: string, suffix: string)
    ensures HasSuffix(rest + suffix, suffix)
    ensures TrimSuffix(rest + suffix, suffix) == rest
  {
  }
}

=== FILE: model.dfy ===
/** The entities the store persists, one datatype per record type. Ids are the
    hexadecimal text of an ObjectID; the empty string stands for the zero ObjectID.
    Prices and totals are integers and timestamps are integer clock readings. */
module Model {

  datatype LaptopSpec = LaptopSpec(
    cpu: string, ram: string, storage: string, storageType: string,
    gpu: string, screenSize: string, screenResolution: string)

  /** A catalog product. Neither price nor stock is kept non-negative by the store itself. */
  datatype Laptop = Laptop(
    id: string, modelName: string, brandId: string, categoryId: string,
    price: int, stock: int, description: string, isActive: bool,
    specs: LaptopSpec, createdAt: int, updatedAt: int)

  datatype User = User(
    id: string, email: string, fullName: string, passwordHash: string,
    role: string, createdAt: int)

  datatype CartItem = CartItem(laptopId: string, quantity: int)

  datatype Cart = Cart(id: string, userId: string, items: seq<CartItem>, updatedAt: int)

  /** An order line; `price` is the unit price read when the order was placed. */
  datatype OrderItem = OrderItem(laptopId: string, quantity: int, price: int)

  datatype Order = Order(
    id: string, userId: string, items: seq<OrderItem>, total: int,
    status: string, createdAt: int)

  datatype Review = Review(
    id: string, userId: string, laptopId: string, rating: int,
    comment: string, status: string, createdAt: int)

  datatype Session = Session(
    id: string, token: string, userId: string, role: string,
    expiresAt: int, createdAt: int)
}

=== FILE: orders.dfy ===
/** Order placement as pure functions over the product collection and one cart:
    the selection of lines, the validation pass that captures prices, the stock
    reservation and the order total. Each list is built front to back, one line
    at a time, as the store's loops do. */
module Orders {
  import opened Wrappers
  import opened Model
  import opened Catalog
  import opened Carts
  import opened Seqs

  /** The lines whose membership in `ids` is `inside`, in cart order. */
  function Part(items: seq<CartItem>, ids: seq<string>, inside: bool): (r: seq<CartItem>)
    ensures |r| <= |items|
    ensures forall x :: x in r <==> x in items && (x.laptopId in ids) == inside
    ensures InOrder(r, items)
  {
    if items == [] then
      NoneInOrder(items);
      []
    else
      var front := items[..|items| - 1];
      var last := items[|items| - 1];
      assert items == front + [last];
      var kept := Part(front, ids, inside);
      if (last.laptopId in ids) == inside then
        KeepNext(kept, front, last);
        kept + [last]
      else
        SkipNext(kept, front, last);
        kept
  }

  /** The lines an explicit id selection picks. */
  function Selected(items: seq<CartItem>, ids: seq<string>): (r: seq<CartItem>)
    ensures forall x :: x in r <==> x in items && x.laptopId in ids
    ensures InOrder(r, items)
  {
    Part(items, ids, true)
  }

  /** The lines an explicit id selection leaves in the cart. */
  function Unselected(items: seq<CartItem>, ids: seq<string>): (r: seq<CartItem>)
    ensures forall x :: x in r <==> x in items && x.laptopId !in ids
    ensures InOrder(r, items)
  {
    Part(items, ids, false)
  }

  /** The lines an order is placed for: all of them, or the selected ones when ids are given. */
  function Chosen(items: seq<CartItem>, ids: seq<string>): (r: seq<CartItem>)
    ensures forall x :: x in r <==> x in items && (|ids| == 0 || x.laptopId in ids)
    ensures InOrder(r, items)
  {
    if |ids| > 0 then Selected(items, ids)
    else
      assert PickedAt(items, items, seq(|items|, i => i));
      items
  }

  /** Selected and unselected lines together are the cart's lines, each exactly once. */
  lemma {:induction false} Partition(items: seq<CartItem>, ids: seq<string>)
    ensures multiset(Selected(items, ids)) + multiset(Unselected(items, ids)) == multiset(items)
  {
    if items != [] {
      var last := items[|items| - 1];
      Partition(items[..|items| - 1], ids);
      assert items == items[..|items| - 1] + [last];
    }
  }

  /** Keeping some of a well-formed cart's lines keeps it well formed. */
  lemma {:induction false} PartWellFormed(items: seq<CartItem>, ids: seq<string>, inside: bool)
    requires WellFormed(items)
    ensures WellFormed(Part(items, ids, inside))
  {
    if items != [] {
      var front := items[..|items| - 1];
      var last := items[|items| - 1];
      assert WellFormed(front);
      PartWellFormed(front, ids, inside);
      var r := Part(front, ids, inside);
      forall i | 0 <= i < |r| ensures r[i].laptopId != last.laptopId {
        assert r[i] in front;
      }
    }
  }

  /** The lines an order is placed for keep the cart's one-line-per-product shape. */
  lemma ChosenWellFormed(items: seq<CartItem>, ids: seq<string>)
    requires WellFormed(items)
    ensures WellFormed(Chosen(items, ids))
  {
    if |ids| > 0 {
      PartWellFormed(items, ids, true);
    }
  }

  /** An explicit selection that covers every line leaves an empty list behind. */
  lemma AllSelected(items: seq<CartItem>, ids: seq<string>)
    requires forall i :: 0 <= i < |items| ==> items[i].laptopId in ids
    ensures Unselected(items, ids) == []
    ensures Selected(items, ids) == items
  {
    Partition(items, ids);
    SelectedAll(items, ids);
  }

  lemma {:induction false} SelectedAll(items: seq<CartItem>, ids: seq<string>)
    requires forall i :: 0 <= i < |items| ==> items[i].laptopId in ids
    ensures Selected(items, ids) == items
  {
    if items != [] {
      var front := items[..|items| - 1];
      SelectedAll(front, ids);
      assert items == front + [items[|items| - 1]];
      assert Part(items, ids, true) == Part(front, ids, true) + [items[|items| - 1]];
    }
  }

  /** Why a line cannot be ordered: its product is missing or inactive, or the
      quantity exceeds the stock. */
  function LineError(products: seq<Laptop>, it: CartItem): (e: Option<string>)
    ensures e.None? <==>
      (Lookup(products, it.laptopId).Some? && Lookup(products, it.laptopId).value.isActive &&
       it.quantity <= Lookup(products, it.laptopId).value.stock)
    ensures Lookup(products, it.laptopId).None? ==> e == Some("laptop not found")
    ensures Lookup(products, it.laptopId).Some? ==>
      var p := Lookup(products, it.laptopId).value;
      && (!p.isActive ==> e == Some("laptop not found"))
      && (p.isActive && it.quantity > p.stock ==> e == Some("insufficient stock"))
  {
    match Lookup(products, it.laptopId)
    case None => Some("laptop not found")
    case Some(p) =>
      if !p.isActive then Some("laptop not found")
      else if it.quantity > p.stock then Some("insufficient stock")
      else None
  }

  /** The validation pass: every line is checked in turn, the first bad line stops
      it with its error, and each good line becomes an order line carrying the
      price read now. */
  function Priced(products: seq<Laptop>, lines: seq<CartItem>): (r: Result<seq<OrderItem>>)
    ensures r.Success? ==> |r.value| == |lines|
    ensures r.Failure? ==> r.error in {"laptop not found", "insufficient stock"}
    decreases |lines|
  {
    if lines == [] then Success([])
    else
      var it := lines[|lines| - 1];
      match Priced(products, lines[..|lines| - 1])
      case Failure(e) => Failure(e)
      case Success(items) =>
        match LineError(products, it)
        case Some(e) => Failure(e)
        case None => Success(items + [OrderItem(it.laptopId, it.quantity, Lookup(products, it.laptopId).value.price)])
  }

  /** Once a prefix of the lines fails, the whole pass fails with the same error. */
  lemma {:induction false} PricedPrefix(products: seq<Laptop>, lines: seq<CartItem>, k: nat)
    requires k <= |lines| && Priced(products, lines[..k]).Failure?
    ensures Priced(products, lines) == Priced(products, lines[..k])
    decreases |lines| - k
  {
    if k < |lines| {
      var front := lines[..|lines| - 1];
      assert front[..k] == lines[..k];
      PricedPrefix(products, front, k);
    } else {
      assert lines[..k] == lines;
    }
  }

  /** The pass succeeds exactly when every line can be ordered; the order lines then
      follow the cart lines one for one, with the product's price at that moment. */
  lemma PricedSucceeds(products: seq<Laptop>, lines: seq<CartItem>)
    ensures Priced(products, lines).Success? <==> forall i :: 0 <= i < |lines| ==> LineError(products, lines[i]).None?
    ensures Priced(products, lines).Success? ==> PricedLines(products, lines, Priced(products, lines).value)
  {
    PricedAllOk(products, lines);
    if Priced(products, lines).Success? {
      PricedShape(products, lines);
    }
  }

  lemma {:induction false} PricedAllOk(products: seq<Laptop>, lines: seq<CartItem>)
    ensures Priced(products, lines).Success? <==> forall i :: 0 <= i < |lines| ==> LineError(products, lines[i]).None?
  {
    if lines != [] {
      var front := lines[..|lines| - 1];
      var last := lines[|lines| - 1];
      PricedAllOk(products, front);
      assert Priced(products, lines).Success? <==>
        Priced(products, front).Success? && LineError(products, last).None?;
      if forall i :: 0 <= i < |lines| ==> LineError(products, lines[i]).None? {
        assert forall i :: 0 <= i < |front| ==> front[i] == lines[i];
        assert LineError(products, lines[|lines| - 1]).None?;
      } else {
        var i :| 0 <= i < |lines| && LineError(products, lines[i]).Some?;
        if i < |front| {
          assert front[i] == lines[i];
        }
      }
    }
  }

  lemma {:induction false} PricedShape(products: seq<Laptop>, lines: seq<CartItem>)
    requires Priced(products, lines).Success?
    ensures PricedLines(products, lines, Priced(products, lines).value)
  {
    if lines != [] {
      var front := lines[..|lines| - 1];
      var it := lines[|lines| - 1];
      assert Priced(products, front).Success?;
      PricedShape(products, front);
      var items := Priced(products, front).value;
      var all := Priced(products, lines).value;
      assert LineError(products, it).None?;
      var line := OrderItem(it.laptopId, it.quantity, Lookup(products, it.laptopId).value.price);
      assert all == items + [line];
      forall i | 0 <= i < |lines|
        ensures Lookup(products, lines[i].laptopId).Some?
        ensures all[i] == OrderItem(lines[i].laptopId, lines[i].quantity, Lookup(products, lines[i].laptopId).value.price)
      {
        if i < |front| {
          assert all[i] == items[i] && lines[i] == front[i];
        } else {
          assert all[i] == line && lines[i] == it;
        }
      }
    }
  }

  /** `items` are the order lines for `lines`: same products and quantities, in the
      same order, each with the price the product has in `products`. */
  predicate PricedLines(products: seq<Laptop>, lines: seq<CartItem>, items: seq<OrderItem>) {
    && |items| == |lines|
    && forall i :: 0 <= i < |lines| ==>
         && Lookup(products, lines[i].laptopId).Some?
         && items[i] == OrderItem(lines[i].laptopId, lines[i].quantity, Lookup(products, lines[i].laptopId).value.price)
  }

  /** A failing pass reports the error of the first line that cannot be ordered. */
  lemma {:induction false} PricedFails(products: seq<Laptop>, lines: seq<CartItem>)
    requires Priced(products, lines).Failure?
    ensures exists i :: (0 <= i < |lines| && LineError(products, lines[i]) == Some(Priced(products, lines).error) &&
      (forall j :: 0 <= j < i ==> LineError(products, lines[j]).None?))
  {
    var front := lines[..|lines| - 1];
    var last := |lines| - 1;
    if Priced(products, front).Failure? {
      PricedFails(products, front);
      var i :| 0 <= i < |front| && LineError(products, front[i]) == Some(Priced(products, front).error)
        && forall j :: 0 <= j < i ==> LineError(products, front[j]).None?;
      assert lines[i] == front[i];
      assert forall j :: 0 <= j < i ==> lines[j] == front[j];
    } else {
      PricedSucceeds(products, front);
      assert forall j :: 0 <= j < last ==> lines[j] == front[j];
      assert LineError(products, lines[last]) == Some(Priced(products, lines).error);
    }
  }

  /** The order total: the sum of price times quantity over the order lines; with
      non-negative prices and quantities it is non-negative. */
  function Total(items: seq<OrderItem>): (t: int)
    ensures (forall i :: 0 <= i < |items| ==> items[i].price >= 0 && items[i].quantity >= 0) ==> t >= 0
  {
    if items == [] then 0
    else
      var last := items[|items| - 1];
      assert last.price >= 0 && last.quantity >= 0 ==> last.price * last.quantity >= 0;
      Total(items[..|items| - 1]) + last.price * last.quantity
  }

  /** One `$inc` update: the first product with that id loses `q` units of stock and
      its update time is set; an id that matches nothing changes nothing. */
  function DecrementStock(products: seq<Laptop>, id: string, q: int, now: int): (r: seq<Laptop>)
    ensures |r| == |products|
    ensures forall k :: 0 <= k < |products| ==> r[k].id == products[k].id
  {
    match ProductIndex(products, id)
    case None => products
    case Some(k) => products[k := products[k].(stock := products[k].stock - q, updatedAt := now)]
  }

  /** With distinct ids, the decrement lands on the one product with that id. */
  lemma DecrementAt(products: seq<Laptop>, id: string, q: int, now: int, k: nat)
    requires DistinctIds(products) && k < |products| && products[k].id == id
    ensures DecrementStock(products, id, q, now)[k] == products[k].(stock := products[k].stock - q, updatedAt := now)
  {
  }

  /** A decrement leaves every product with another id as it was. */
  lemma DecrementElsewhere(products: seq<Laptop>, id: string, q: int, now: int, k: nat)
    requires k < |products| && products[k].id != id
    ensures DecrementStock(products, id, q, now)[k] == products[k]
  {
  }

  /** The reservation pass: one stock decrement per ordered line, in order. */
  function Reserve(products: seq<Laptop>, lines: seq<CartItem>, now: int): (r: seq<Laptop>)
    ensures |r| == |products|
    ensures forall k :: 0 <= k < |products| ==> r[k].id == products[k].id
    decreases |lines|
  {
    if lines == [] then products
    else
      var it := lines[|lines| - 1];
      DecrementStock(Reserve(products, lines[..|lines| - 1], now), it.laptopId, it.quantity, now)
  }

  /** A product no line refers to comes out of the reservation unchanged. */
  lemma {:induction false} ReserveUntouched(products: seq<Laptop>, lines: seq<CartItem>, now: int, k: nat)
    requires k < |products|
    requires forall j :: 0 <= j < |lines| ==> lines[j].laptopId != products[k].id
    ensures Reserve(products, lines, now)[k] == products[k]
    decreases |lines|
  {
    if lines != [] {
      ReserveUntouched(products, lines[..|lines| - 1], now, k);
    }
  }

  /** With distinct product ids and one line per product, each ordered product loses
      exactly its line's quantity and gets the new update time. */
  lemma {:induction false} ReserveSelected(products: seq<Laptop>, lines: seq<CartItem>, now: int, k: nat, j: nat)
    requires DistinctIds(products) && WellFormed(lines)
    requires k < |products| && j < |lines| && lines[j].laptopId == products[k].id
    ensures Reserve(products, lines, now)[k] ==
      products[k].(stock := products[k].stock - lines[j].quantity, updatedAt := now)
    decreases |lines|
  {
    var front := lines[..|lines| - 1];
    var it := lines[|lines| - 1];
    var mid := Reserve(products, front, now);
    assert DistinctIds(mid);
    if j == |lines| - 1 {
      ReserveUntouched(products, front, now, k);
      DecrementAt(mid, it.laptopId, it.quantity, now, k);
    } else {
      assert WellFormed(front);
      ReserveSelected(products, front, now, k, j);
      DecrementElsewhere(mid, it.laptopId, it.quantity, now, k);
    }
  }

  /** No oversell: after a successful validation pass over one-line-per-product lines,
      every ordered product ends with non-negative stock and no product whose stock
      was non-negative goes below zero. */
  lemma NoOversell(products: seq<Laptop>, lines: seq<CartItem>, now: int)
    requires DistinctIds(products) && WellFormed(lines)
    requires Priced(products, lines).Success?
    ensures forall k, j :: 0 <= k < |products| && 0 <= j < |lines| && lines[j].laptopId == products[k].id ==>
      Reserve(products, lines, now)[k].stock >= 0
    ensures forall k :: 0 <= k < |products| && products[k].stock >= 0 ==> Reserve(products, lines, now)[k].stock >= 0
  {
    PricedSucceeds(products, lines);
    var r := Reserve(products, lines, now);
    forall k | 0 <= k < |products| && products[k].stock >= 0 ensures r[k].stock >= 0 {
      if j :| 0 <= j < |lines| && lines[j].laptopId == products[k].id {
        ReserveSelected(products, lines, now, k, j);
        assert LineError(products, lines[j]).None?;
      } else {
        ReserveUntouched(products, lines, now, k);
      }
    }
    forall k, j | 0 <= k < |products| && 0 <= j < |lines| && lines[j].laptopId == products[k].id
      ensures r[k].stock >= 0
    {
      ReserveSelected(products, lines, now, k, j);
      assert LineError(products, lines[j]).None?;
    }
  }

  /** The whole validation phase of placing an order from `cart` (absent when the user
      has none): an empty cart, an explicit selection that matches nothing, then the
      per-line checks. On success it yields the order lines. */
  function Checkout(products: seq<Laptop>, cart: Option<Cart>, ids: seq<string>): (r: Result<seq<OrderItem>>)
    ensures r.Success? ==> cart.Some? && |r.value| == |Chosen(cart.value.items, ids)| > 0
    ensures r.Failure? ==> r.error in {"cart empty", "no selected items", "laptop not found", "insufficient stock"}
  {
    if cart.None? || |cart.value.items| == 0 then Failure("cart empty")
    else if |ids| > 0 && |Selected(cart.value.items, ids)| == 0 then Failure("no selected items")
    else Priced(products, Chosen(cart.value.items, ids))
  }

  /** The failure cases of order placement, in the order they are checked. */
  lemma CheckoutOutcome(products: seq<Laptop>, cart: Option<Cart>, ids: seq<string>)
    ensures Checkout(products, cart, ids) == Failure("cart empty") <==> cart.None? || cart.value.items == []
    ensures cart.Some? && cart.value.items != [] ==>
      (Checkout(products, cart, ids) == Failure("no selected items") <==>
        |ids| > 0 && forall i :: 0 <= i < |cart.value.items| ==> cart.value.items[i].laptopId !in ids)
    ensures Checkout(products, cart, ids).Success? <==>
      && cart.Some? && cart.value.items != []
      && (|ids| == 0 || exists i :: 0 <= i < |cart.value.items| && cart.value.items[i].laptopId in ids)
      && forall it :: it in Chosen(cart.value.items, ids) ==> LineError(products, it).None?
    ensures cart.Some? && cart.value.items != [] && (|ids| == 0 || |Selected(cart.value.items, ids)| > 0) &&
            Checkout(products, cart, ids).Failure? ==>
      var lines := Chosen(cart.value.items, ids);
      exists i :: && 0 <= i < |lines|
                  && LineError(products, lines[i]) == Some(Checkout(products, cart, ids).error)
                  && (forall j :: 0 <= j < i ==> LineError(products, lines[j]).None?)
  {
    if cart.Some? && cart.value.items != [] {
      var items := cart.value.items;
      var lines := Chosen(items, ids);
      if |ids| > 0 && exists i :: 0 <= i < |items| && items[i].laptopId in ids {
        var i :| 0 <= i < |items| && items[i].laptopId in ids;
        assert items[i] in Selected(items, ids);
      }
      PricedSucceeds(products, lines);
      if Priced(products, lines).Failure? {
        PricedFails(products, lines);
      }
    }
  }

  /** ListOrders: the user's orders, newest first. */
  function ListOrders(orders: seq<Order>, userId: string): (r: seq<Order>)
    ensures forall o :: o in r <==> o in orders && o.userId == userId
    ensures forall o :: multiset(r)[o] == if o.userId == userId then multiset(orders)[o] else 0
    ensures forall i, j :: 0 <= i < j < |r| ==> r[i].createdAt >= r[j].createdAt
  {
    var r := SortBy(Filter(orders, (o: Order) => o.userId == userId), (o: Order) => -o.createdAt);
    r
  }
}

=== FILE: product_handler.dfy ===
/** The request-level rules of the laptop endpoints: input validation, the query to
    filter mapping, the id taken from the path and the admin gate in front of every
    catalog write. */
module ProductHandler {
  import opened Wrappers
  import opened Model
  import opened Catalog
  import opened Http
  import opened Store

  /** White space as Go's unicode.IsSpace defines it. */
  predicate IsSpace(c: char) {
    || c == '\t' || c == '\n' || c == '\U{000B}' || c == '\U{000C}' || c == '\r' || c == ' '
    || c == '\U{0085}' || c == '\U{00A0}' || c == '\U{1680}'
    || ('\U{2000}' <= c <= '\U{200A}')
    || c == '\U{2028}' || c == '\U{2029}' || c == '\U{202F}' || c == '\U{205F}' || c == '\U{3000}'
  }

  predicate Blank(s: string) {
    forall i :: 0 <= i < |s| ==> IsSpace(s[i])
  }

  /** The string without its leading white space. */
  function TrimLeft(s: string): (r: string)
    ensures |r| <= |s| && r == s[|s| - |r|..]
    ensures r == [] || !IsSpace(r[0])
    ensures Blank(s[..|s| - |r|])
  {
    if s != [] && IsSpace(s[0]) then TrimLeft(s[1..]) else s
  }

  /** The string without its trailing white space. */
  function TrimRight(s: string): (r: string)
    ensures |r| <= |s| && r == s[..|r|]
    ensures r == [] || !IsSpace(r[|r| - 1])
    ensures Blank(s[|r|..])
  {
    if s != [] && IsSpace(s[|s| - 1]) then TrimRight(s[..|s| - 1]) else s
  }

  /** strings.TrimSpace: the string without leading and trailing white space. */
  function TrimSpace(s: string): (r: string)
    ensures |r| <= |s|
    ensures r == [] || (!IsSpace(r[0]) && !IsSpace(r[|r| - 1]))
    ensures exists lead, trail :: Blank(lead) && Blank(trail) && s == lead + r + trail
  {
    var l := TrimLeft(s);
    var r := TrimRight(l);
    Around(s, l, r);
    r
  }

  /** A suffix `l` of `s` and a prefix `r` of `l` split `s` into three parts. */
  lemma Around(s: string, l: string, r: string)
    requires |l| <= |s| && l == s[|s| - |l|..]
    requires |r| <= |l| && r == l[..|r|]
    ensures s == s[..|s| - |l|] + r + l[|r|..]
  {
    assert s == s[..|s| - |l|] + l;
    assert l == r + l[|r|..];
  }

  /** A string trims to nothing exactly when it is all white space. */
  lemma TrimSpaceEmpty(s: string)
    ensures TrimSpace(s) == "" <==> Blank(s)
  {
  }

  /** validateProduct: the model name must hold more than white space, brand and
      category must be given, and price and stock must not be negative; the first
      rule broken gives the message. */
  function ValidateProduct(p: Laptop): (r: Option<string>)
    ensures r == Some("model_name required") <==> Blank(p.modelName)
    ensures r == Some("brand_id and category_id required") <==>
      !Blank(p.modelName) && (p.brandId == "" || p.categoryId == "")
    ensures r == Some("price and stock must be >= 0") <==>
      !Blank(p.modelName) && p.brandId != "" && p.categoryId != "" && (p.price < 0 || p.stock < 0)
    ensures r.None? <==>
      !Blank(p.modelName) && p.brandId != "" && p.categoryId != "" && p.price >= 0 && p.stock >= 0
  {
    TrimSpaceEmpty(p.modelName);
    if TrimSpace(p.modelName) == "" then Some("model_name required")
    else if p.brandId == "" || p.categoryId == "" then Some("brand_id and category_id required")
    else if p.price < 0 || p.stock < 0 then Some("price and stock must be >= 0")
    else None
  }

  /** productFilterFromQuery. The price bounds arrive already parsed; a bound that
      does not parse arrives as 0. */
  function FilterFromQuery(query: map<string, string>, priceMin: int, priceMax: int): (f: ProductFilter)
    ensures f.includeInactive <==> "include_inactive" in query && query["include_inactive"] == "true"
    ensures f.brandId == Get(query, "brand") && f.categoryId == Get(query, "category")
    ensures f.cpu == Get(query, "cpu") && f.ram == Get(query, "ram") && f.gpu == Get(query, "gpu")
    ensures f.storageType == Get(query, "storage_type") && f.sort == Get(query, "sort")
    ensures f.priceMin == priceMin && f.priceMax == priceMax
  {
    ProductFilter(
      brandId := Get(query, "brand"),
      categoryId := Get(query, "category"),
      cpu := Get(query, "cpu"),
      ram := Get(query, "ram"),
      gpu := Get(query, "gpu"),
      storageType := Get(query, "storage_type"),
      priceMin := priceMin,
      priceMax := priceMax,
      sort := Get(query, "sort"),
      includeInactive := Get(query, "include_inactive") == "true")
  }

  /** Without include_inactive=true, a listing shows active laptops only. */
  lemma ListingHidesInactive(products: seq<Laptop>, query: map<string, string>, priceMin: int, priceMax: int)
    requires Get(query, "include_inactive") != "true"
    ensures forall p :: p in ListProducts(products, FilterFromQuery(query, priceMin, priceMax)) ==> p.isActive
  {
  }

  /** A bare listing request (no parameters, no price bounds) shows exactly the active
      laptops. */
  lemma BareListing(products: seq<Laptop>)
    ensures forall p :: p in ListProducts(products, FilterFromQuery(map[], 0, 0)) <==> p in products && p.isActive
  {
  }

  /** The id a /api/laptops/ path names: the path without that prefix. */
  function LaptopIdFromPath(path: string): (id: string)
    ensures "/api/laptops/" <= path ==> "/api/laptops/" + id == path
    ensures !("/api/laptops/" <= path) ==> id == path
  {
    TrimPrefix(path, "/api/laptops/")
  }

  /** The id placed after the prefix is the id read back. */
  lemma LaptopPathRoundTrip(id: string)
    ensures LaptopIdFromPath("/api/laptops/" + id) == id
  {
    TrimPrefixOfConcat("/api/laptops/", id);
  }

  /** HandleLaptops. GET lists with the filter from the query. POST is for the admin
      role only, then needs a body that decodes (`body` is None when it does not) and
      passes validation before the store creates the laptop. Other methods get 405. */
  method HandleLaptops(st: Store, httpMethod: string, role: string, query: map<string, string>,
                       priceMin: int, priceMax: int, body: Option<Laptop>, now: int)
    returns (resp: Response)
    requires st.Valid()
    modifies st
    ensures st.Valid()
    ensures httpMethod == "GET" ==>
      resp == Response(200, LaptopList(ListProducts(st.products, FilterFromQuery(query, priceMin, priceMax))))
    ensures httpMethod == "POST" && role != "admin" ==> resp == Response(403, ErrorBody("forbidden"))
    ensures httpMethod == "POST" && role == "admin" && body.None? ==> resp == Response(400, ErrorBody("bad json"))
    ensures httpMethod == "POST" && role == "admin" && body.Some? && ValidateProduct(body.value).Some? ==>
      resp == Response(400, ErrorBody(ValidateProduct(body.value).value))
    ensures httpMethod !in {"GET", "POST"} ==> resp == Response(405, NoBody)
    ensures resp.status == 201 <==>
      httpMethod == "POST" && role == "admin" && body.Some? && ValidateProduct(body.value).None?
    ensures resp.status == 201 ==>
      && resp.body.LaptopBody?
      && resp.body.laptop == body.value.(id := MintId(old(st.minted)), createdAt := now, updatedAt := now, isActive := true)
      && st.products == old(st.products) + [resp.body.laptop]
    ensures resp.status != 201 ==> unchanged(st)
  {
    if httpMethod == "GET" {
      return Response(200, LaptopList(st.ListProducts(FilterFromQuery(query, priceMin, priceMax))));
    } else if httpMethod == "POST" {
      if role != "admin" {
        return Response(403, ErrorBody("forbidden"));
      }
      if body.None? {
        return Response(400, ErrorBody("bad json"));
      }
      var invalid := ValidateProduct(body.value);
      if invalid.Some? {
        return Response(400, ErrorBody(invalid.value));
      }
      var created := st.CreateProduct(body.value, now);
      return Response(201, LaptopBody(created));
    } else {
      return Response(405, NoBody);
    }
  }

  /** HandleLaptopByID. The id comes from the path; an empty one gives 400 before
      anything else. GET reads the laptop; PUT and DELETE are for the admin role only,
      and PUT also needs a body that decodes and passes validation. A missing laptop
      gives 404; other methods get 405. */
  method HandleLaptopByID(st: Store, httpMethod: string, path: string, role: string,
                          body: Option<Laptop>, now: int)
    returns (resp: Response)
    requires st.Valid()
    modifies st
    ensures st.Valid()
    ensures LaptopIdFromPath(path) == "" ==> resp == Response(400, ErrorBody("bad id"))
    ensures var id := LaptopIdFromPath(path);
      && (id != "" && httpMethod == "GET" ==>
            resp == (if Lookup(st.products, id).Some? then Response(200, LaptopBody(Lookup(st.products, id).value))
                     else Response(404, ErrorBody("not found"))))
      && (id != "" && httpMethod in {"PUT", "DELETE"} && role != "admin" ==>
            resp == Response(403, ErrorBody("forbidden")))
      && (id != "" && httpMethod == "PUT" && role == "admin" && body.None? ==>
            resp == Response(400, ErrorBody("bad json")))
      && (id != "" && httpMethod == "PUT" && role == "admin" && body.Some? && ValidateProduct(body.value).Some? ==>
            resp == Response(400, ErrorBody(ValidateProduct(body.value).value)))
      && (id != "" && httpMethod == "PUT" && role == "admin" && body.Some? && ValidateProduct(body.value).None? ==>
            && (resp.status == 200 <==> ProductIndex(old(st.products), id).Some?)
            && (ProductIndex(old(st.products), id).None? ==> resp == Response(404, ErrorBody("not found")))
            && (ProductIndex(old(st.products), id).Some? ==>
                  var k := ProductIndex(old(st.products), id).value;
                  var p := body.value;
                  var updated := old(st.products)[k].(modelName := p.modelName, brandId := p.brandId,
                    categoryId := p.categoryId, price := p.price, stock := p.stock,
                    description := p.description, isActive := p.isActive, specs := p.specs,
                    updatedAt := now);
                  && resp == Response(200, LaptopBody(updated))
                  && st.products == old(st.products)[k := updated]))
      && (id != "" && httpMethod == "DELETE" && role == "admin" ==>
            && (resp == Response(200, MessageBody("deleted")) <==> exists p :: p in old(st.products) && p.id == id)
            && (resp != Response(200, MessageBody("deleted")) ==> resp == Response(404, ErrorBody("not found")))
            && (resp == Response(200, MessageBody("deleted")) ==>
                  var k := ProductIndex(old(st.products), id).value;
                  st.products == old(st.products)[..k] + old(st.products)[k + 1..]))
      && (id != "" && httpMethod !in {"GET", "PUT", "DELETE"} ==> resp == Response(405, NoBody))
    ensures st.products != old(st.products) ==>
      && httpMethod in {"PUT", "DELETE"} && role == "admin" && resp.status == 200
      && (httpMethod == "PUT" ==> body.Some? && ValidateProduct(body.value).None?)
    ensures st.users == old(st.users) && st.carts == old(st.carts) && st.orders == old(st.orders)
    ensures st.reviews == old(st.reviews) && st.sessions == old(st.sessions) && st.minted == old(st.minted)
  {
    var id := LaptopIdFromPath(path);
    if id == "" {
      return Response(400, ErrorBody("bad id"));
    }
    if httpMethod == "GET" {
      var p := st.GetProductByID(id);
      if p.None? {
        return Response(404, ErrorBody("not found"));
      }
      return Response(200, LaptopBody(p.value));
    } else if httpMethod == "PUT" {
      if role != "admin" {
        return Response(403, ErrorBody("forbidden"));
      }
      if body.None? {
        return Response(400, ErrorBody("bad json"));
      }
      var invalid := ValidateProduct(body.value);
      if invalid.Some? {
        return Response(400, ErrorBody(invalid.value));
      }
      var updated := st.UpdateProduct(id, body.value, now);
      if updated.None? {
        return Response(404, ErrorBody("not found"));
      }
      return Response(200, LaptopBody(updated.value));
    } else if httpMethod == "DELETE" {
      if role != "admin" {
        return Response(403, ErrorBody("forbidden"));
      }
      var deleted := st.DeleteProduct(id);
      if !deleted {
        return Response(404, ErrorBody("not found"));
      }
      return Response(200, MessageBody("deleted"));
    } else {
      return Response(405, NoBody);
    }
  }
}

=== FILE: review_handlers.dfy ===
/** The request-level rules of the review endpoints: which paths reach moderation,
    which status a moderation request sets, who may see pending reviews, and that a
    review needs a signed-in user. */
module ReviewHandlers {
  import opened Wrappers
  import opened Model
  import opened Catalog
  import opened Reviews
  import opened Http
  import opened Store

  /** A moderation request body: a status, or an approved flag, or neither. The
      handler ignores decoding errors, so the value it acts on is whatever the JSON
      decoder left: the zero request for an empty or unreadable body, and the fields
      already filled when decoding stopped part way. */
  datatype ModerateRequest = ModerateRequest(status: string, approved: Option<bool>)

  /** A review creation request body. */
  datatype CreateReviewRequest = CreateReviewRequest(laptopId: string, rating: int, comment: string)

  /** Where a /api/reviews/ path leads. */
  datatype ReviewRoute = Approve(id: string) | BadId | NotAllowed

  /** HandleReviewByID's path parsing: only a path ending in "/approve" is handled,
      and the review id is what lies between "/api/reviews/" and "/approve". */
  function RouteReview(path: string): (r: ReviewRoute)
    ensures r.NotAllowed? <==> !HasSuffix(TrimPrefix(path, "/api/reviews/"), "/approve")
    ensures r == BadId <==> TrimPrefix(path, "/api/reviews/") == "/approve"
    ensures r.Approve? ==> r.id != "" && TrimPrefix(path, "/api/reviews/") == r.id + "/approve"
  {
    var rest := TrimPrefix(path, "/api/reviews/");
    if HasSuffix(rest, "/approve") then
      var id := TrimSuffix(rest, "/approve");
      if id == "" then BadId else Approve(id)
    else NotAllowed
  }

  /** The id placed in an approval path is the id the route reads back. */
  lemma ReviewPathRoundTrip(id: string)
    requires id != ""
    ensures RouteReview("/api/reviews/" + id + "/approve") == Approve(id)
  {
    assert "/api/reviews/" + id + "/approve" == "/api/reviews/" + (id + "/approve");
    TrimPrefixOfConcat("/api/reviews/", id + "/approve");
    TrimSuffixOfConcat(id, "/approve");
  }

  /** The status a moderation request sets: its own status when given, "rejected" for
      approved=false, "approved" otherwise. */
  function ModerationStatus(req: ModerateRequest): (s: string)
    ensures s != ""
    ensures req.status != "" ==> s == req.status
    ensures req.status == "" ==> (s == "rejected" <==> req.approved == Some(false))
    ensures req.status == "" ==> (s == "approved" <==> req.approved != Some(false))
  {
    if req.status != "" then req.status
    else if req.approved.Some? && !req.approved.value then "rejected"
    else "approved"
  }

  /** ListReviews' decision: pending reviews are shown only to the admin role, and only
      when asked for with all=true. */
  predicate IncludePending(role: string, all: string): (b: bool)
    ensures role != "admin" ==> !b
    ensures role == "admin" ==> (b <==> all == "true")
  {
    role == "admin" && all == "true"
  }

  /** ListReviews: a product id is required; the answer holds that product's reviews,
      approved ones only unless the caller may and does ask for all of them. */
  function HandleListReviews(st: Store, query: map<string, string>, role: string): (resp: Response)
    reads st
    ensures Get(query, "product_id") == "" ==> resp == Response(400, ErrorBody("product_id required"))
    ensures Get(query, "product_id") != "" ==>
      && resp == Response(200, ReviewList(ListReviews(st.reviews, Get(query, "product_id"),
                                                     IncludePending(role, Get(query, "all")))))
      && forall v :: v in resp.body.reviews <==>
           && v in st.reviews
           && v.laptopId == Get(query, "product_id")
           && (v.status == "approved" || (role == "admin" && Get(query, "all") == "true"))
    ensures role != "admin" && resp.body.ReviewList? ==> forall v :: v in resp.body.reviews ==> v.status == "approved"
  {
    var productId := Get(query, "product_id");
    if productId == "" then Response(400, ErrorBody("product_id required"))
    else Response(200, ReviewList(st.ListReviews(productId, IncludePending(role, Get(query, "all")))))
  }

  /** HandleReviews. POST creates a review for the signed-in user (`userId` is None
      when the request carries none, `body` None when it does not decode); any store
      error becomes 400. GET lists; other methods get 405. */
  method HandleReviews(st: Store, httpMethod: string, userId: Option<string>, body: Option<CreateReviewRequest>,
                       query: map<string, string>, role: string, now: int)
    returns (resp: Response)
    requires st.Valid()
    modifies st
    ensures st.Valid()
    ensures httpMethod == "POST" && userId.None? ==> resp == Response(401, ErrorBody("no user"))
    ensures httpMethod == "POST" && userId.Some? && body.None? ==> resp == Response(400, ErrorBody("bad json"))
    ensures httpMethod == "POST" && userId.Some? && body.Some? ==>
      var req := body.value;
      && (resp.status == 201 <==> ValidRating(req.rating) && Lookup(old(st.products), req.laptopId).Some?)
      && (resp.status != 201 ==>
            resp.status == 400 && resp.body.ErrorBody? &&
            resp.body.message == (if ValidRating(req.rating) then "laptop not found" else "rating must be 1-5"))
      && (resp.status == 201 ==>
            && resp == Response(201, ReviewBody(Review(MintId(old(st.minted)), userId.value, req.laptopId,
                                                       req.rating, req.comment, "pending", now)))
            && st.reviews == old(st.reviews) + [resp.body.review])
    ensures httpMethod == "GET" ==> resp == HandleListReviews(st, query, role)
    ensures httpMethod !in {"GET", "POST"} ==> resp == Response(405, NoBody)
    ensures resp.status != 201 ==> unchanged(st)
    ensures st.users == old(st.users) && st.products == old(st.products) && st.carts == old(st.carts)
    ensures st.orders == old(st.orders) && st.sessions == old(st.sessions)
  {
    if httpMethod == "POST" {
      if userId.None? {
        return Response(401, ErrorBody("no user"));
      }
      if body.None? {
        return Response(400, ErrorBody("bad json"));
      }
      var req := body.value;
      var r := st.CreateReview(userId.value, req.laptopId, req.rating, req.comment, now);
      if r.Failure? {
        return Response(400, ErrorBody(r.error));
      }
      return Response(201, ReviewBody(r.value));
    } else if httpMethod == "GET" {
      return HandleListReviews(st, query, role);
    } else {
      return Response(405, NoBody);
    }
  }

  /** HandleReviewByID with ApproveReview behind it. Any request method is accepted
      on an approval path. Only the admin role may moderate; `req` is the request as the
      decoder left it, so an empty body approves. An unknown review gives 404. */
  method HandleReviewByID(st: Store, path: string, role: string, req: ModerateRequest)
    returns (resp: Response)
    requires st.Valid()
    modifies st
    ensures st.Valid()
    ensures RouteReview(path).NotAllowed? ==> resp == Response(405, NoBody)
    ensures RouteReview(path).BadId? ==> resp == Response(400, ErrorBody("bad id"))
    ensures RouteReview(path).Approve? && role != "admin" ==> resp == Response(403, ErrorBody("forbidden"))
    ensures RouteReview(path).Approve? && role == "admin" ==>
      var id := RouteReview(path).id;
      && (ReviewIndex(old(st.reviews), id).None? ==> resp == Response(404, ErrorBody("not found")))
      && (ReviewIndex(old(st.reviews), id).Some? ==>
            var k := ReviewIndex(old(st.reviews), id).value;
            && resp == Response(200, ReviewBody(old(st.reviews)[k].(status := ModerationStatus(req))))
            && st.reviews == old(st.reviews)[k := resp.body.review])
    ensures resp.status == 200 ==>
      (resp.body.review in st.ListReviews(resp.body.review.laptopId, false) <==>
        ModerationStatus(req) == "approved")
    ensures resp.status != 200 ==> unchanged(st)
    ensures st.users == old(st.users) && st.products == old(st.products) && st.carts == old(st.carts)
    ensures st.orders == old(st.orders) && st.sessions == old(st.sessions) && st.minted == old(st.minted)
  {
    match RouteReview(path)
    case NotAllowed =>
      resp := Response(405, NoBody);
    case BadId =>
      resp := Response(400, ErrorBody("bad id"));
    case Approve(id) =>
      if role != "admin" {
        return Response(403, ErrorBody("forbidden"));
      }
      var status := ModerationStatus(req);
      var updated := st.SetReviewStatus(id, status);
      if updated.None? {
        return Response(404, ErrorBody("not found"));
      }
      var k := ReviewIndex(old(st.reviews), id).value;
      assert st.reviews[k] == updated.value;
      resp := Response(200, ReviewBody(updated.value));
  }
}

=== FILE: reviews.dfy ===
/** The review board: rating bounds, moderation status and the public listing. */
module Reviews {
  import opened Wrappers
  import opened Model
  import opened Seqs

  /** Ratings run from 1 to 5 inclusive. */
  predicate ValidRating(rating: int): (b: bool)
    ensures b <==> rating in {1, 2, 3, 4, 5}
  {
    1 <= rating <= 5
  }

  /** No two stored reviews share an id. */
  predicate DistinctReviewIds(reviews: seq<Review>) {
    forall i, j :: 0 <= i < j < |reviews| ==> reviews[i].id != reviews[j].id
  }

  /** Position of the review with the given id. */
  function ReviewIndex(reviews: seq<Review>, id: string): (r: Option<nat>)
    ensures r.Some? ==> r.value < |reviews| && reviews[r.value].id == id
    ensures r.None? <==> forall v :: v in reviews ==> v.id != id
  {
    FirstIndex(reviews, (v: Review) => v.id == id)
  }

  /** The status SetReviewStatus stores: an empty status means "approved". */
  function StatusOrApproved(status: string): (s: string)
    ensures s != ""
    ensures status == "" ==> s == "approved"
    ensures status != "" ==> s == status
  {
    if status == "" then "approved" else status
  }

  /** Whether a listing for `laptopId` shows the review. */
  predicate Listed(v: Review, laptopId: string, includePending: bool) {
    v.laptopId == laptopId && (includePending || v.status == "approved")
  }

  /** ListReviews: the product's reviews, only approved ones unless pending ones are
      asked for, newest first. */
  function ListReviews(reviews: seq<Review>, laptopId: string, includePending: bool): (r: seq<Review>)
    ensures forall v :: v in r <==> v in reviews && v.laptopId == laptopId && (includePending || v.status == "approved")
    ensures forall v :: multiset(r)[v] == if Listed(v, laptopId, includePending) then multiset(reviews)[v] else 0
    ensures forall i, j :: 0 <= i < j < |r| ==> r[i].createdAt >= r[j].createdAt
  {
    var r := SortBy(Filter(reviews, (v: Review) => Listed(v, laptopId, includePending)), (v: Review) => -v.createdAt);
    r
  }

  /** A pending review is hidden from the public listing and shown once approved. */
  lemma ApprovalShowsReview(reviews: seq<Review>, k: nat)
    requires k < |reviews| && reviews[k].status == "pending"
    ensures reviews[k] !in ListReviews(reviews, reviews[k].laptopId, false)
    ensures reviews[k].(status := "approved") in
      ListReviews(reviews[k := reviews[k].(status := "approved")], reviews[k].laptopId, false)
  {
    var laptopId := reviews[k].laptopId;
    assert !Listed(reviews[k], laptopId, false);
    var approved := reviews[k := reviews[k].(status := "approved")];
    assert approved[k] in approved && Listed(approved[k], laptopId, false);
  }
}

=== FILE: seqs.dfy ===
/** Generic sequence operations standing in for the document store's queries:
    first match (FindOne), filtering (Find with a filter) and sorting (SetSort). */
module Seqs {
  import opened Wrappers

  /** Index of the first element that `matches`: what FindOne returns over a
      collection kept in insertion order. */
  function FirstIndex<T>(s: seq<T>, matches: T -> bool): (r: Option<nat>)
    ensures r.Some? ==> r.value < |s| && matches(s[r.value])
    ensures r.Some? ==> forall j :: 0 <= j < r.value ==> !matches(s[j])
    ensures r.None? <==> forall j :: 0 <= j < |s| ==> !matches(s[j])
  {
    if s == [] then None
    else if matches(s[0]) then Some(0)
    else match FirstIndex(s[1..], matches)
      case None => None
      case Some(k) => Some(k + 1)
  }

  /** The elements of `s` that `keep` accepts, in their stored order. */
  function Filter<T(!new)>(s: seq<T>, keep: T -> bool): (r: seq<T>)
    ensures |r| <= |s|
    ensures forall x :: x in r <==> x in s && keep(x)
    ensures forall x :: multiset(r)[x] == if keep(x) then multiset(s)[x] else 0
    ensures multiset(r) <= multiset(s)
  {
    if s == [] then []
    else
      assert s == [s[0]] + s[1..];
      (if keep(s[0]) then [s[0]] else []) + Filter(s[1..], keep)
  }

  /** `idx` places each element of `r` at a position of `s`, and the positions
      increase: `r` is `s` with some elements left out and the rest in order. */
  ghost predicate PickedAt<T>(r: seq<T>, s: seq<T>, idx: seq<int>) {
    && |idx| == |r|
    && (forall i {:trigger idx[i]} :: 0 <= i < |r| ==> 0 <= idx[i] < |s| && r[i] == s[idx[i]])
    && (forall i, j :: 0 <= i < j < |r| ==> idx[i] < idx[j])
  }

  /** `r` keeps some of the elements of `s`, in the order they have in `s`. */
  ghost predicate InOrder<T>(r: seq<T>, s: seq<T>) {
    exists idx :: PickedAt(r, s, idx)
  }

  lemma NoneInOrder<T>(s: seq<T>)
    ensures InOrder([], s)
  {
    assert PickedAt([], s, []);
  }

  /** Keeping the next element of `s` keeps the order. */
  lemma KeepNext<T>(r: seq<T>, s: seq<T>, x: T)
    requires InOrder(r, s)
    ensures InOrder(r + [x], s + [x])
  {
    var idx :| PickedAt(r, s, idx);
    assert PickedAt(r + [x], s + [x], idx + [|s|]);
  }

  /** Leaving out the next element of `s` keeps the order. */
  lemma SkipNext<T>(r: seq<T>, s: seq<T>, x: T)
    requires InOrder(r, s)
    ensures InOrder(r, s + [x])
  {
    var idx :| PickedAt(r, s, idx);
    assert PickedAt(r, s + [x], idx);
  }

  /** `s` is ordered by non-decreasing `key`. */
  predicate Ascending<T>(s: seq<T>, key: T -> int) {
    forall i, j :: 0 <= i < j < |s| ==> key(s[i]) <= key(s[j])
  }

  /** Inserts `x` into an ascending sequence, after every element with a smaller key. */
  function Insert<T(!new)>(x: T, s: seq<T>, key: T -> int): (r: seq<T>)
    requires Ascending(s, key)
    ensures Ascending(r, key)
    ensures multiset(r) == multiset(s) + multiset{x}
    ensures forall y :: y in r <==> y == x || y in s
  {
    if s == [] || key(x) <= key(s[0]) then [x] + s
    else
      assert s == [s[0]] + s[1..];
      var rest := Insert(x, s[1..], key);
      HeadStaysFirst(x, s, rest, key);
      var r := [s[0]] + rest;
      assert multiset(r) == multiset{s[0]} + multiset(rest);
      r
  }

  /** When `x` goes after the head of `s`, the head still comes first. */
  lemma HeadStaysFirst<T>(x: T, s: seq<T>, rest: seq<T>, key: T -> int)
    requires s != [] && Ascending(s, key) && key(s[0]) < key(x)
    requires Ascending(rest, key)
    requires forall y :: y in rest <==> y == x || y in s[1..]
    ensures Ascending([s[0]] + rest, key)
  {
    forall i | 0 <= i < |rest| ensures key(s[0]) <= key(rest[i]) {
      assert rest[i] in rest;
      if rest[i] != x {
        var j :| 0 <= j < |s[1..]| && s[1..][j] == rest[i];
        assert s[j + 1] == rest[i];
      }
    }
    var r := [s[0]] + rest;
    forall i, j | 0 <= i < j < |r| ensures key(r[i]) <= key(r[j]) {
      assert r[j] == rest[j - 1];
      if i > 0 {
        assert r[i] == rest[i - 1];
      }
    }
  }

  /** Sorts by ascending `key` (a descending sort passes the negated key). */
  function SortBy<T(!new)>(s: seq<T>, key: T -> int): (r: seq<T>)
    ensures Ascending(r, key)
    ensures multiset(r) == multiset(s)
    ensures forall x :: x in r <==> x in s
  {
    if s == [] then []
    else
      assert s == [s[0]] + s[1..];
      var r := Insert(s[0], SortBy(s[1..], key), key);
      assert forall x :: x in r <==> x in multiset(r);
      r
  }
}

=== FILE: sessions.dfy ===
/** The session registry: server-side token records with an expiry. */
module Sessions {
  import opened Wrappers
  import opened Model
  import opened Seqs

  /** Position of the first session recorded for `token`. */
  function SessionIndex(sessions: seq<Session>, token: string): (r: Option<nat>)
    ensures r.Some? ==> r.value < |sessions| && sessions[r.value].token == token
    ensures r.Some? ==> forall j :: 0 <= j < r.value ==> sessions[j].token != token
    ensures r.None? <==> forall s :: s in sessions ==> s.token != token
  {
    FirstIndex(sessions, (s: Session) => s.token == token)
  }

  /** IsSessionValid at time `now`: the verdict and the sessions left afterwards. A
      token with no record is invalid; a record whose expiry is before `now` is
      invalid and is removed; otherwise the token is valid and nothing changes. */
  function CheckSession(sessions: seq<Session>, token: string, now: int): (r: (bool, seq<Session>))
    ensures r.0 ==> r.1 == sessions
    ensures r.0 ==> exists s :: s in sessions && s.token == token && now <= s.expiresAt
    ensures (forall s :: s in sessions && s.token == token ==> s.expiresAt < now) ==> !r.0
    ensures forall s :: s in sessions && s.token != token ==> s in r.1
    ensures multiset(r.1) <= multiset(sessions)
    ensures |r.1| >= |sessions| - 1
    ensures SessionIndex(sessions, token).None? ==> r == (false, sessions)
    ensures SessionIndex(sessions, token).Some? ==>
      var k := SessionIndex(sessions, token).value;
      && (r.0 <==> now <= sessions[k].expiresAt)
      && (!r.0 ==> r.1 == sessions[..k] + sessions[k + 1..])
      && multiset(r.1) + (if r.0 then multiset{} else multiset{sessions[k]}) == multiset(sessions)
  {
    match SessionIndex(sessions, token)
    case None => (false, sessions)
    case Some(k) =>
      if now > sessions[k].expiresAt then
        assert sessions == sessions[..k] + [sessions[k]] + sessions[k + 1..];
        (false, sessions[..k] + sessions[k + 1..])
      else (true, sessions)
  }

  /** When tokens are unique, a token is valid exactly when its record has not
      expired, and an expired token's record is gone after the check, so a second
      check also answers false. */
  lemma UniqueTokenCheck(sessions: seq<Session>, token: string, now: int)
    requires forall i, j :: 0 <= i < j < |sessions| && sessions[i].token == token ==> sessions[j].token != token
    ensures CheckSession(sessions, token, now).0 <==>
      exists s :: s in sessions && s.token == token && now <= s.expiresAt
    ensures !CheckSession(sessions, token, now).0 ==>
      var rest := CheckSession(sessions, token, now).1;
      (forall s :: s in rest ==> s.token != token) && CheckSession(rest, token, now) == (false, rest)
  {
  }
}

=== FILE: store.dfy ===
/** The Store: the one owner of every collection (users, laptops, carts, orders,
    reviews, sessions). Each collection is a field that the write operations
    reassign; the read operations are functions of the fields. Persistence,
    timeouts and the clock are not modelled: `now` is a parameter, and ids come
    from a counter. */
module Store {
  import opened Wrappers
  import opened Model
  import opened Catalog
  import opened Carts
  import opened Orders
  import opened Users
  import opened Reviews
  import opened Sessions

  /** The n-th id the store mints. It stands for a fresh ObjectID: all that matters is
      that it differs from every id minted before it, which its length guarantees. */
  function MintId(n: nat): (id: string) {
    seq(n + 1, _ => 'f')
  }

  /** A change that keeps every laptop's id in place keeps the ids distinct and
      within the minted range. */
  lemma IdsCarry(before: seq<Laptop>, after: seq<Laptop>, bound: nat)
    requires |after| == |before|
    requires forall k :: 0 <= k < |before| ==> after[k].id == before[k].id
    requires DistinctIds(before) && forall p :: p in before ==> |p.id| <= bound
    ensures DistinctIds(after) && forall p :: p in after ==> |p.id| <= bound
  {
  }

  /** Removing the one laptop with id `id` keeps every other laptop, leaves none with
      that id, and keeps the ids distinct and within the minted range. */
  lemma RemoveOne(before: seq<Laptop>, k: nat, bound: nat)
    requires k < |before| && DistinctIds(before) && forall p :: p in before ==> |p.id| <= bound
    ensures var after := before[..k] + before[k + 1..];
      && DistinctIds(after)
      && (forall p :: p in after ==> |p.id| <= bound && p.id != before[k].id)
      && (forall p :: p in before && p.id != before[k].id ==> p in after)
  {
    var after := before[..k] + before[k + 1..];
    assert forall j :: 0 <= j < |after| ==> after[j] == before[if j < k then j else j + 1];
    forall p | p in before && p.id != before[k].id ensures p in after {
      var j :| 0 <= j < |before| && before[j] == p;
      assert after[if j < k then j else j - 1] == p;
    }
  }

  /** The set of ids an order selects. */
  method IdSet(ids: seq<string>) returns (chosen: set<string>)
    ensures forall x :: x in chosen <==> x in ids
  {
    chosen := {};
    for n := 0 to |ids|
      invariant forall x :: x in chosen <==> x in ids[..n]
    {
      assert ids[..n + 1] == ids[..n] + [ids[n]];
      chosen := chosen + {ids[n]};
    }
    assert ids[..|ids|] == ids;
  }

  /** The cart lines whose laptop is in the selection (`inside`) or not in it, in
      cart order. */
  method KeepLines(items: seq<CartItem>, ids: seq<string>, chosen: set<string>, inside: bool)
    returns (kept: seq<CartItem>)
    requires forall x :: x in chosen <==> x in ids
    ensures kept == Part(items, ids, inside)
  {
    kept := [];
    for i := 0 to |items|
      invariant kept == Part(items[..i], ids, inside)
    {
      assert items[..i + 1][..i] == items[..i];
      if (items[i].laptopId in chosen) == inside {
        kept := kept + [items[i]];
      }
    }
    assert items[..|items|] == items;
  }

  /** The validation pass of an order: every line's laptop must exist, be active and
      have the stock; the lines get the current prices, and their total is summed. */
  method PriceLines(products: seq<Laptop>, lines: seq<CartItem>)
    returns (r: Result<seq<OrderItem>>, total: int)
    ensures r == Priced(products, lines)
    ensures r.Success? ==> total == Total(r.value)
  {
    var items: seq<OrderItem> := [];
    total := 0;
    for i := 0 to |lines|
      invariant Priced(products, lines[..i]) == Success(items)
      invariant total == Total(items)
    {
      var it := lines[i];
      assert lines[..i + 1][..i] == lines[..i];
      var p := Lookup(products, it.laptopId);
      if p.None? || !p.value.isActive {
        PricedPrefix(products, lines, i + 1);
        return Failure("laptop not found"), total;
      }
      if it.quantity > p.value.stock {
        PricedPrefix(products, lines, i + 1);
        return Failure("insufficient stock"), total;
      }
      var line := OrderItem(it.laptopId, it.quantity, p.value.price);
      assert (items + [line])[..|items|] == items;
      items := items + [line];
      total := total + p.value.price * it.quantity;
    }
    assert lines[..|lines|] == lines;
    r := Success(items);
  }

  /** The reservation pass of an order: each line's quantity comes off its laptop's
      stock, in line order. */
  method ReserveLines(products: seq<Laptop>, lines: seq<CartItem>, now: int) returns (stock: seq<Laptop>)
    ensures stock == Reserve(products, lines, now)
  {
    stock := products;
    for i := 0 to |lines|
      invariant stock == Reserve(products, lines[..i], now)
    {
      assert lines[..i + 1][..i] == lines[..i];
      stock := DecrementStock(stock, lines[i].laptopId, lines[i].quantity, now);
    }
    assert lines[..|lines|] == lines;
  }

  /** AddToCart's scan of the cart: the first line for `id` grows by `q`; when the scan
      finds none, a new line is appended. */
  method MergeLine(lines: seq<CartItem>, id: string, q: int) returns (merged: seq<CartItem>)
    ensures merged == Merge(lines, id, q)
  {
    merged := lines;
    var found := false;
    var i := 0;
    while i < |lines|
      invariant 0 <= i <= |lines|
      invariant merged == lines
      invariant forall j :: 0 <= j < i ==> lines[j].laptopId != id
    {
      if lines[i].laptopId == id {
        MergeAt(lines, id, q, i);
        merged := lines[i := lines[i].(quantity := lines[i].quantity + q)];
        found := true;
        break;
      }
      i := i + 1;
    }
    if !found {
      MergeAppends(lines, id, q);
      merged := lines + [CartItem(id, q)];
    }
  }

  class Store {
    var users: seq<User>
    var products: seq<Laptop>
    /** Carts by owner: one cart per user id. */
    var carts: map<string, Cart>
    var orders: seq<Order>
    var reviews: seq<Review>
    var sessions: seq<Session>
    /** How many ids have been minted so far. */
    var minted: nat

    /** Products and reviews have distinct ids, all minted; emails are unique; every
        cart is stored under its owner and has one line per product. */
    ghost predicate Valid()
      reads this
    {
      && DistinctIds(products)
      && (forall p :: p in products ==> |p.id| <= minted)
      && DistinctReviewIds(reviews)
      && (forall v :: v in reviews ==> |v.id| <= minted)
      && UniqueEmails(users)
      && (forall u :: u in users ==> |u.id| <= minted)
      && (forall u :: u in carts ==> carts[u].userId == u && WellFormed(carts[u].items))
    }

    constructor ()
      ensures Valid()
      ensures users == [] && products == [] && carts == map[] && orders == [] && reviews == [] && sessions == []
    {
      users, products, carts, orders, reviews, sessions := [], [], map[], [], [], [];
      minted := 0;
    }

    // ---------------------------------------------------------------- users

    /** RegisterUser: refuses a missing email or password, a stored email and a failed
        hash, in that order, changing nothing; otherwise stores a user with a fresh id,
        the hash of the password and the role ("user" when none is given). */
    method RegisterUser(email: string, fullName: string, password: string, role: string,
                        hash: string -> Option<string>, now: int) returns (r: Result<User>)
      requires Valid()
      modifies this
      ensures Valid()
      ensures var e := RegistrationError(old(users), email, password, hash(password));
        && (e.Some? ==> r == Failure(e.value) && unchanged(this))
        && (e.None? ==> r == Success(User(MintId(old(minted)), email, fullName, hash(password).value, RoleOrDefault(role), now)))
      ensures r.Success? ==> users == old(users) + [r.value]
      ensures r.Success? ==> forall u :: u in old(users) ==> u.id != r.value.id
      ensures products == old(products) && carts == old(carts) && orders == old(orders)
      ensures reviews == old(reviews) && sessions == old(sessions)
    {
      var e := RegistrationError(users, email, password, hash(password));
      if e.Some? {
        return Failure(e.value);
      }
      var user := User(MintId(minted), email, fullName, hash(password).value, RoleOrDefault(role), now);
      RegistrationKeepsUnique(users, user, password, hash(password));
      users := users + [user];
      minted := minted + 1;
      r := Success(user);
    }

    /** AuthenticateUser over the stored users. */
    function AuthenticateUser(email: string, password: string, verify: (string, string) -> bool): Result<User>
      reads this
    {
      Authenticate(users, email, password, verify)
    }

    /** EnsureAdminUser: does nothing when some user already has the admin role;
        otherwise registers an admin, with a default email, name and password for
        each one left empty. */
    method EnsureAdminUser(email: string, fullName: string, password: string,
                           hash: string -> Option<string>, now: int) returns (out: Outcome)
      requires Valid()
      modifies this
      ensures Valid()
      ensures HasAdmin(old(users)) ==> out == Pass && unchanged(this)
      ensures !HasAdmin(old(users)) ==>
        var mail := if email == "" then "admin@rapidtech.local" else email;
        var name := if fullName == "" then "Admin" else fullName;
        var pw := if password == "" then "Admin123!" else password;
        var e := RegistrationError(old(users), mail, pw, hash(pw));
        && (e.Some? ==> out == Fail(e.value) && unchanged(this))
        && (e.None? ==>
              && out == Pass
              && HasAdmin(users)
              && users == old(users) + [User(MintId(old(minted)), mail, name, hash(pw).value, "admin", now)])
      ensures products == old(products) && carts == old(carts) && orders == old(orders)
      ensures reviews == old(reviews) && sessions == old(sessions)
    {
      var mail := if email == "" then "admin@rapidtech.local" else email;
      var name := if fullName == "" then "Admin" else fullName;
      var pw := if password == "" then "Admin123!" else password;
      if HasAdmin(users) {
        return Pass;
      }
      var r := RegisterUser(mail, name, pw, "admin", hash, now);
      if r.Failure? {
        return Fail(r.error);
      }
      assert users[|users| - 1] in users;
      out := Pass;
    }

    // ---------------------------------------------------------------- catalog

    /** GetProductByID: the stored laptop with that id, if any. */
    function GetProductByID(id: string): Option<Laptop>
      reads this
    {
      Lookup(products, id)
    }

    /** ListProducts over the stored laptops. */
    function ListProducts(f: ProductFilter): seq<Laptop>
      reads this
    {
      Catalog.ListProducts(products, f)
    }

    /** CreateProduct: stores the laptop with a fresh id, both timestamps set to `now`
        and the active flag set whatever it was. Price and stock are stored as given. */
    method CreateProduct(p: Laptop, now: int) returns (created: Laptop)
      requires Valid()
      modifies this
      ensures Valid()
      ensures created == p.(id := MintId(old(minted)), createdAt := now, updatedAt := now, isActive := true)
      ensures created.isActive
      ensures forall q :: q in old(products) ==> q.id != created.id
      ensures products == old(products) + [created]
      ensures users == old(users) && carts == old(carts) && orders == old(orders)
      ensures reviews == old(reviews) && sessions == old(sessions)
    {
      created := p.(id := MintId(minted), createdAt := now, updatedAt := now);
      if !created.isActive {
        created := created.(isActive := true);
      }
      products := products + [created];
      minted := minted + 1;
    }

    /** UpdateProduct: overwrites the mutable fields of the laptop with that id (name,
        brand, category, price, stock, description, active flag, specs) and its update
        time; the id and creation time stay. An unknown id changes nothing. */
    method UpdateProduct(id: string, p: Laptop, now: int) returns (r: Option<Laptop>)
      requires Valid()
      modifies this
      ensures Valid()
      ensures ProductIndex(old(products), id).None? ==> r.None? && unchanged(this)
      ensures ProductIndex(old(products), id).Some? ==>
        var k := ProductIndex(old(products), id).value;
        && r == Some(old(products)[k].(modelName := p.modelName, brandId := p.brandId,
                 categoryId := p.categoryId, price := p.price, stock := p.stock,
                 description := p.description, isActive := p.isActive, specs := p.specs,
                 updatedAt := now))
        && products == old(products)[k := r.value]
      ensures r.Some? ==> r.value.id == id
      ensures users == old(users) && carts == old(carts) && orders == old(orders)
      ensures reviews == old(reviews) && sessions == old(sessions) && minted == old(minted)
    {
      match ProductIndex(products, id)
      case None =>
        r := None;
      case Some(k) =>
        var updated := products[k].(modelName := p.modelName, brandId := p.brandId,
          categoryId := p.categoryId, price := p.price, stock := p.stock,
          description := p.description, isActive := p.isActive, specs := p.specs,
          updatedAt := now);
        IdsCarry(products, products[k := updated], minted);
        products := products[k := updated];
        r := Some(updated);
    }

    /** DeleteProduct: removes the laptop with that id; true exactly when one existed. */
    method DeleteProduct(id: string) returns (deleted: bool)
      requires Valid()
      modifies this
      ensures Valid()
      ensures deleted <==> exists q :: q in old(products) && q.id == id
      ensures forall q :: q in products ==> q.id != id
      ensures forall q :: q in old(products) && q.id != id ==> q in products
      ensures deleted ==>
        var k := ProductIndex(old(products), id).value;
        products == old(products)[..k] + old(products)[k + 1..]
      ensures !deleted ==> unchanged(this)
      ensures users == old(users) && carts == old(carts) && orders == old(orders)
      ensures reviews == old(reviews) && sessions == old(sessions) && minted == old(minted)
    {
      match ProductIndex(products, id)
      case None =>
        deleted := false;
      case Some(k) =>
        RemoveOne(products, k, minted);
        products := products[..k] + products[k + 1..];
        deleted := true;
    }

    // ---------------------------------------------------------------- carts

    /** GetCart over the stored carts. */
    function GetCart(userId: string): Cart
      reads this
    {
      Carts.GetCart(carts, userId)
    }

    /** AddToCart: an unknown laptop fails and changes nothing. Otherwise the user's cart
        (created empty on first use) gets the quantity, at least one, merged in: the
        laptop's line grows, or a line is appended. Only the existence of the laptop is
        checked, not its active flag or its stock. */
    method AddToCart(userId: string, laptopId: string, qty: int, now: int) returns (r: Result<Cart>)
      requires Valid()
      modifies this
      ensures Valid()
      ensures Lookup(old(products), laptopId).None? ==> r == Failure("laptop not found") && unchanged(this)
      ensures Lookup(old(products), laptopId).Some? ==>
        && r.Success?
        && r.value.userId == userId
        && r.value.updatedAt == now
        && r.value.items == Merge(Carts.GetCart(old(carts), userId).items, laptopId, EffectiveQty(qty))
        && (userId in old(carts) ==> r.value.id == old(carts)[userId].id)
        && carts == old(carts)[userId := r.value]
      ensures users == old(users) && products == old(products) && orders == old(orders)
      ensures reviews == old(reviews) && sessions == old(sessions)
    {
      var q := EffectiveQty(qty);
      if GetProductByID(laptopId).None? {
        return Failure("laptop not found");
      }
      var cart: Cart;
      if userId in carts {
        cart := carts[userId];
      } else {
        cart := Cart(MintId(minted), userId, [], now);
        minted := minted + 1;
      }
      var items := MergeLine(cart.items, laptopId, q);
      MergeWellFormed(cart.items, laptopId, q);
      cart := cart.(items := items, updatedAt := now);
      carts := carts[userId := cart];
      r := Success(cart);
    }

    // ---------------------------------------------------------------- orders

    /** CreateOrderFromCart: validates the whole order before changing anything, so
        every failure leaves the store as it was. On success each ordered laptop's stock
        drops by its line's quantity, the order records the prices read during
        validation and their total, and the cart is deleted (no selection) or keeps
        exactly the unselected lines (a selection). */
    method CreateOrderFromCart(userId: string, itemIds: seq<string>, now: int) returns (r: Result<Order>)
      requires Valid()
      modifies this
      ensures Valid()
      ensures var cart := if userId in old(carts) then Some(old(carts)[userId]) else None;
        var outcome := Checkout(old(products), cart, itemIds);
        && (outcome.Failure? ==> r == Failure(outcome.error) && unchanged(this))
        && (outcome.Success? ==>
              && r == Success(Order(MintId(old(minted)), userId, outcome.value, Total(outcome.value), "created", now))
              && products == Reserve(old(products), Chosen(old(carts)[userId].items, itemIds), now)
              && orders == old(orders) + [r.value]
              && carts == if |itemIds| == 0 then old(carts) - {userId}
                          else old(carts)[userId := old(carts)[userId].(
                                 items := Unselected(old(carts)[userId].items, itemIds), updatedAt := now)])
      ensures r.Success? ==> forall k :: 0 <= k < |products| && old(products)[k].stock >= 0 ==> products[k].stock >= 0
      ensures users == old(users) && reviews == old(reviews) && sessions == old(sessions)
    {
      if userId !in carts {
        return Failure("cart empty");
      }
      var cart := carts[userId];
      if |cart.items| == 0 {
        return Failure("cart empty");
      }

      var chosen := IdSet(itemIds);
      var selected := cart.items;
      if |itemIds| > 0 {
        selected := KeepLines(cart.items, itemIds, chosen, true);
        if |selected| == 0 {
          return Failure("no selected items");
        }
      }
      assert selected == Chosen(cart.items, itemIds);

      // validation pass: nothing is changed before every line has passed
      var priced, total := PriceLines(products, selected);
      if priced.Failure? {
        return Failure(priced.error);
      }
      var items := priced.value;

      assert Checkout(products, Some(cart), itemIds) == Success(items);
      ChosenWellFormed(cart.items, itemIds);
      var order := CommitOrder(userId, itemIds, chosen, selected, items, total, now);
      r := Success(order);
    }

    /** The part of CreateOrderFromCart that runs once every line has passed
        validation: reserve the stock, store the order, then delete the cart or keep
        only its unselected lines. */
    method CommitOrder(userId: string, itemIds: seq<string>, chosen: set<string>,
                       selected: seq<CartItem>, items: seq<OrderItem>, total: int, now: int)
      returns (order: Order)
      requires Valid()
      requires userId in carts
      requires forall x :: x in chosen <==> x in itemIds
      requires selected == Chosen(carts[userId].items, itemIds)
      requires Priced(products, selected) == Success(items) && total == Total(items)
      requires WellFormed(selected)
      modifies this
      ensures Valid()
      ensures order == Order(MintId(old(minted)), userId, items, total, "created", now)
      ensures products == Reserve(old(products), selected, now)
      ensures orders == old(orders) + [order]
      ensures carts == if |itemIds| == 0 then old(carts) - {userId}
                       else old(carts)[userId := old(carts)[userId].(
                              items := Unselected(old(carts)[userId].items, itemIds), updatedAt := now)]
      ensures forall k :: 0 <= k < |products| && old(products)[k].stock >= 0 ==> products[k].stock >= 0
      ensures users == old(users) && reviews == old(reviews) && sessions == old(sessions)
    {
      ReserveStock(selected, now);
      order := Order(MintId(minted), userId, items, total, "created", now);
      minted := minted + 1;
      orders := orders + [order];
      SettleCart(userId, itemIds, chosen, now);
    }

    /** Takes each line's quantity off its laptop's stock. The lines have passed
        validation, so no stock goes below zero. */
    method ReserveStock(lines: seq<CartItem>, now: int)
      requires Valid()
      requires WellFormed(lines) && Priced(products, lines).Success?
      modifies this
      ensures Valid()
      ensures products == Reserve(old(products), lines, now)
      ensures forall k :: 0 <= k < |products| && old(products)[k].stock >= 0 ==> products[k].stock >= 0
      ensures users == old(users) && carts == old(carts) && orders == old(orders)
      ensures reviews == old(reviews) && sessions == old(sessions) && minted == old(minted)
    {
      NoOversell(products, lines, now);
      var stock := ReserveLines(products, lines, now);
      IdsCarry(products, stock, minted);
      products := stock;
    }

    /** After an order: the cart goes when no selection was given, otherwise it keeps
        the unselected lines and gets a new update time. */
    method SettleCart(userId: string, itemIds: seq<string>, chosen: set<string>, now: int)
      requires Valid()
      requires userId in carts
      requires forall x :: x in chosen <==> x in itemIds
      modifies this
      ensures Valid()
      ensures carts == if |itemIds| == 0 then old(carts) - {userId}
                       else old(carts)[userId := old(carts)[userId].(
                              items := Unselected(old(carts)[userId].items, itemIds), updatedAt := now)]
      ensures users == old(users) && products == old(products) && orders == old(orders)
      ensures reviews == old(reviews) && sessions == old(sessions) && minted == old(minted)
    {
      var cart := carts[userId];
      if |itemIds| == 0 {
        carts := carts - {userId};
      } else {
        var remaining := KeepLines(cart.items, itemIds, chosen, false);
        PartWellFormed(cart.items, itemIds, false);
        carts := carts[userId := cart.(items := remaining, updatedAt := now)];
      }
    }

    /** ListOrders over the stored orders. */
    function ListOrders(userId: string): seq<Order>
      reads this
    {
      Orders.ListOrders(orders, userId)
    }

    // ---------------------------------------------------------------- reviews

    /** CreateReview: a rating outside 1..5 fails first, then an unknown laptop; both
        change nothing. Otherwise a pending review with a fresh id is stored. */
    method CreateReview(userId: string, laptopId: string, rating: int, comment: string, now: int)
      returns (r: Result<Review>)
      requires Valid()
      modifies this
      ensures Valid()
      ensures !ValidRating(rating) ==> r == Failure("rating must be 1-5") && unchanged(this)
      ensures ValidRating(rating) && Lookup(old(products), laptopId).None? ==>
        r == Failure("laptop not found") && unchanged(this)
      ensures r.Success? <==> ValidRating(rating) && Lookup(old(products), laptopId).Some?
      ensures r.Success? ==>
        && r.value == Review(MintId(old(minted)), userId, laptopId, rating, comment, "pending", now)
        && (forall v :: v in old(reviews) ==> v.id != r.value.id)
        && reviews == old(reviews) + [r.value]
      ensures users == old(users) && products == old(products) && carts == old(carts)
      ensures orders == old(orders) && sessions == old(sessions)
    {
      if rating < 1 || rating > 5 {
        return Failure("rating must be 1-5");
      }
      if GetProductByID(laptopId).None? {
        return Failure("laptop not found");
      }
      var review := Review(MintId(minted), userId, laptopId, rating, comment, "pending", now);
      reviews := reviews + [review];
      minted := minted + 1;
      r := Success(review);
    }

    /** ListReviews over the stored reviews. */
    function ListReviews(laptopId: string, includePending: bool): seq<Review>
      reads this
    {
      Reviews.ListReviews(reviews, laptopId, includePending)
    }

    /** SetReviewStatus: overwrites the status of the review with that id, whatever it
        was ("" means "approved"); an unknown id changes nothing. */
    method SetReviewStatus(id: string, status: string) returns (r: Option<Review>)
      requires Valid()
      modifies this
      ensures Valid()
      ensures ReviewIndex(old(reviews), id).None? ==> r.None? && unchanged(this)
      ensures ReviewIndex(old(reviews), id).Some? ==>
        var k := ReviewIndex(old(reviews), id).value;
        && r == Some(old(reviews)[k].(status := StatusOrApproved(status)))
        && reviews == old(reviews)[k := r.value]
      ensures users == old(users) && products == old(products) && carts == old(carts)
      ensures orders == old(orders) && sessions == old(sessions) && minted == old(minted)
    {
      var s := StatusOrApproved(status);
      match ReviewIndex(reviews, id)
      case None =>
        r := None;
      case Some(k) =>
        var updated := reviews[k].(status := s);
        reviews := reviews[k := updated];
        assert forall j :: 0 <= j < |reviews| ==> reviews[j].id == old(reviews)[j].id;
        assert forall v :: v in reviews ==> |v.id| <= minted by {
          forall v | v in reviews ensures |v.id| <= minted {
            var j :| 0 <= j < |reviews| && reviews[j] == v;
            assert old(reviews)[j] in old(reviews);
          }
        }
        r := Some(updated);
    }

    /** ApproveReview: SetReviewStatus with "approved". */
    method ApproveReview(id: string) returns (r: Option<Review>)
      requires Valid()
      modifies this
      ensures Valid()
      ensures ReviewIndex(old(reviews), id).None? ==> r.None? && unchanged(this)
      ensures ReviewIndex(old(reviews), id).Some? ==>
        var k := ReviewIndex(old(reviews), id).value;
        && r == Some(old(reviews)[k].(status := "approved"))
        && reviews == old(reviews)[k := r.value]
      ensures users == old(users) && products == old(products) && carts == old(carts)
      ensures orders == old(orders) && sessions == old(sessions) && minted == old(minted)
    {
      r := SetReviewStatus(id, "approved");
    }

    // ---------------------------------------------------------------- sessions

    /** CreateSession: records the token with its owner, role and expiry. */
    method CreateSession(token: string, userId: string, role: string, expiresAt: int, now: int)
      requires Valid()
      modifies this
      ensures Valid()
      ensures sessions == old(sessions) + [Session(MintId(old(minted)), token, userId, role, expiresAt, now)]
      ensures users == old(users) && products == old(products) && carts == old(carts)
      ensures orders == old(orders) && reviews == old(reviews)
    {
      sessions := sessions + [Session(MintId(minted), token, userId, role, expiresAt, now)];
      minted := minted + 1;
    }

    /** IsSessionValid at time `now`, removing the record of an expired token. */
    method IsSessionValid(token: string, now: int) returns (valid: bool)
      requires Valid()
      modifies this
      ensures Valid()
      ensures (valid, sessions) == CheckSession(old(sessions), token, now)
      ensures users == old(users) && products == old(products) && carts == old(carts)
      ensures orders == old(orders) && reviews == old(reviews) && minted == old(minted)
    {
      match SessionIndex(sessions, token)
      case None =>
        valid := false;
      case Some(k) =>
        if now > sessions[k].expiresAt {
          sessions := sessions[..k] + sessions[k + 1..];
          valid := false;
        } else {
          valid := true;
        }
    }
  }
}

=== FILE: users.dfy ===
/** The user registry: registration checks and authentication over the users collection. */
module Users {
  import opened Wrappers
  import opened Model
  import opened Seqs

  /** No two stored users share an email (emails compare exactly, case included). */
  predicate UniqueEmails(users: seq<User>) {
    forall i, j :: 0 <= i < j < |users| ==> users[i].email != users[j].email
  }

  /** Position of the user with the given email, as FindOne on `email` returns it. */
  function UserIndex(users: seq<User>, email: string): (r: Option<nat>)
    ensures r.Some? ==> r.value < |users| && users[r.value].email == email
    ensures r.None? <==> forall u :: u in users ==> u.email != email
  {
    FirstIndex(users, (u: User) => u.email == email)
  }

  /** The role a registration stores: an empty role becomes "user". */
  function RoleOrDefault(role: string): (r: string)
    ensures role == "" ==> r == "user"
    ensures role != "" ==> r == role
  {
    if role == "" then "user" else role
  }

  /** The first reason a registration is refused, checked in order: a missing email
      or password, an email already stored, then a failed hash (`hashed` is the
      hashing collaborator's answer for the password). */
  function RegistrationError(users: seq<User>, email: string, password: string, hashed: Option<string>): (e: Option<string>)
    ensures e.None? <==> email != "" && password != "" && UserIndex(users, email).None? && hashed.Some?
    ensures (email == "" || password == "") ==> e == Some("email and password required")
    ensures e == Some("user already exists") <==> email != "" && password != "" && UserIndex(users, email).Some?
    ensures email != "" && password != "" && UserIndex(users, email).None? && hashed.None? ==>
      e == Some("failed to hash password")
  {
    if email == "" || password == "" then Some("email and password required")
    else if UserIndex(users, email).Some? then Some("user already exists")
    else if hashed.None? then Some("failed to hash password")
    else None
  }

  /** Registering an email that is already stored always fails with "user already
      exists", whatever the name, password hash or role. */
  lemma SecondRegistrationConflicts(users: seq<User>, u: User, password: string, hashed: Option<string>)
    requires u in users && u.email != "" && password != ""
    ensures RegistrationError(users, u.email, password, hashed) == Some("user already exists")
  {
  }

  /** A registration that passes the checks keeps emails unique. */
  lemma RegistrationKeepsUnique(users: seq<User>, u: User, password: string, hashed: Option<string>)
    requires UniqueEmails(users)
    requires RegistrationError(users, u.email, password, hashed).None?
    ensures UniqueEmails(users + [u])
  {
  }

  /** AuthenticateUser: the user with that email whose stored hash verifies the
      password; an unknown email and a wrong password give the same error. */
  function Authenticate(users: seq<User>, email: string, password: string, verify: (string, string) -> bool): (r: Result<User>)
    ensures r.Failure? ==> r.error == "invalid credentials"
    ensures r.Success? ==> r.value in users && r.value.email == email && verify(r.value.passwordHash, password)
    ensures UniqueEmails(users) ==>
      (r.Success? <==> exists u :: u in users && u.email == email && verify(u.passwordHash, password))
  {
    match UserIndex(users, email)
    case None => Failure("invalid credentials")
    case Some(k) =>
      if !verify(users[k].passwordHash, password) then Failure("invalid credentials")
      else Success(users[k])
  }

  /** How many stored users have the admin role (CountDocuments on `role`). */
  function AdminCount(users: seq<User>): (n: nat) {
    if users == [] then 0
    else AdminCount(users[..|users| - 1]) + (if users[|users| - 1].role == "admin" then 1 else 0)
  }

  /** Whether the admin count is positive: exactly when some stored user is an admin. */
  predicate HasAdmin(users: seq<User>): (b: bool)
    ensures b <==> exists u :: u in users && u.role == "admin"
  {
    if users == [] then false
    else
      var front := users[..|users| - 1];
      assert users == front + [users[|users| - 1]];
      assert HasAdmin(front) ==> AdminCount(front) > 0;
      AdminCount(users) > 0
  }
}

=== FILE: wrappers.dfy ===
/** Failure-compatible results for the store's error returns. A Go `error` built with
    fmt.Errorf carries only its message, so failures here are strings. */
module Wrappers {

  datatype Option<+T> = None | Some(value: T)

  /** A value or an error message: the (T, error) pairs the store's methods return. */
  datatype Result<+T> = Success(value: T) | Failure(error: string)

  /** An operation that returns only an `error` (nil or not). */
  datatype Outcome = Pass | Fail(error: string)
}
